=== FILE: README.md ===
# pdf-image-extractor: the image decoder and the page collector in Dafny

This project models the part of `index.js` that turns the images pdf.js finds
on a PDF page into pictures.

- **`putBinaryImageData`** draws one image record onto a canvas. An
  `ImageData` is put at the origin as it is. A packed record is unpacked
  into RGBA and handed to the canvas in horizontal slices of at most 16 rows
  (`FULL_CHUNK_HEIGHT`), drawn at rows 0, 16, 32, ... The record's `kind` is
  one of three `ImageKind` codes:
  - 1, grayscale at one bit per pixel, most significant bit first, 1 = white
    and 0 = opaque black;
  - 2, RGB at three bytes per pixel, expanded with alpha 255;
  - 3, RGBA at four bytes per pixel, copied unchanged.

  Any other kind throws `"bad image kind: <kind>"` before anything is drawn.
- **The object router of `pdfPageImages`** walks a page's object table in
  order. An image element pdf.js already built is forwarded. A raw image
  record is drawn, or skipped when drawing throws. Anything else is ignored.
- **`pdfImages`** runs the page router for every page, from the last page to
  the first, over one shared list.

The canvas is a log. Each `ctx.putImageData(image, 0, dy)` call becomes a
`Canvas.Put(dy, image)`, so a decoded image is the sequence of calls it makes.
Pixels are four bytes in buffer order (red, green, blue, alpha). The 32-bit
black word, whose value depends on byte order, is written directly as the
bytes (0, 0, 0, 255).

Modules, one per file:

- `Wrappers` (wrappers.dfy): `Result`.
- `Basics` (basics.dfy): row-major offsets and the arithmetic and sequence facts the proofs use.
- `Pixels` (pixels.dfy): bytes, pixels, buffer layout and most-significant-bit-first bits.
- `Chunking` (chunking.dfy): the 16-row slicing.
- `Canvas` (canvas.dfy): `ImageData` and the call log.
- `Grayscale` (grayscale.dfy), `Rgb` (rgb.dfy) and `Rgba` (rgba.dfy): the three unpacking branches.
- `Decimal` (decimal.dfy): the decimal text of an integer, for the error text.
- `Decoder` (decoder.dfy): `putBinaryImageData` itself.
- `Collector` (collector.dfy): the router and `pdfImages`.

Each branch is modelled twice:

- as a functional specification: `GrayscalePuts`, `RgbPuts`, `RgbaPuts`,
  `PutBinaryImageData`, `PageImages`, `DocumentImages`;
- as methods that follow the code's loops: `PutGrayscale` with its unrolled
  and bit-mask row loops and its zero-fill, `PutRgb`, `PutRgba`, `Draw`,
  `CollectPage` and `PdfImages`.

Each method is proved to produce exactly its specification.

Behaviour of the code worth knowing:

- **Page failures.** `pdfImages` joins its pages with `Promise.all`, so one
  rejected page rejects the whole call. Failures are not confined to a
  page. `Collector.DocumentImages` fails when any page fails.
  It reports the first page requested that fails, the highest-numbered one.
- **No length checks.** Nothing checks a record's buffer length against its
  size.
  - A short RGB source reads `undefined`, which the clamped canvas array
    stores as 0 (`Rgb.RgbPixelDrawn`, `Rgb.RgbPixelPastSource`).
  - A short RGBA source copies a clamped `subarray`. The reused buffer keeps
    the previous chunk's bytes behind it (`Rgba.RgbaChunkByte`, `Rgba.RgbaByteAfterSource`).
  - A short grayscale source shortens its rows. The columns a short row does
    not reach, and every later row of the chunk, stay transparent (0, 0, 0, 0)
    (`Grayscale.GrayscalePixelPastRow`).
- **Short grayscale rows.** A row with `srcDiff` source bytes left decodes
  the full width only when `srcDiff > ceil(width / 8)`. Otherwise it decodes
  `8 * srcDiff - 7` pixels, and the unrolled loop still runs over all but
  the last of those bytes. Because the comparison is strict, the last row
  of an exactly-sized source is cut to `8 * ceil(width / 8) - 7` pixels
  (`Grayscale.ExactSourceShortensLastRow`). The rest of that row is left
  transparent (`Grayscale.GrayscalePixelPastRow`).
- **Zero width.** `ctx.createImageData(0, 16)` throws an `IndexSizeError`
  before the kind is examined. This is modelled as `Decoder.ZeroWidth`.

## Model

| member | source | states |
|---|---|---|
| Chunking.ChunkArithmetic | index.js:116-118 | fullChunks * 16 + partialChunkHeight == height, partialChunkHeight < 16, and totalChunks is height / 16 rounded up |
| Chunking.ChunkBounds | index.js:134-135 | every emitted chunk has 1 to 16 rows and lies inside the image; only the last may be short, with height % 16 rows, and it ends on the bottom row |
| Chunking.NextChunkRow | index.js:173 | chunk i, drawn at row 16 i, ends exactly where chunk i + 1 is drawn |
| Chunking.RowsBeforeChunk | index.js:134-135 | the chunk heights before chunk n add up to its first row, and all of them add up to height |
| Chunking.RowInOneChunk | index.js:134-135 | every image row is drawn by exactly one chunk, chunk row / 16 |
| Canvas.ConcatenatedRows | index.js:173 | when every chunk holds its own rows of an image, the logged chunks read in order are exactly the image's first height rows |
| Canvas.PixelInChunk | index.js:116-118 | pixel c of row r lies in chunk r / 16 at slot (r % 16) * width + c, inside that chunk's rows |
| Pixels.BitsRoundTrip | index.js:146-166 | reading the eight bits of a byte back gives the byte: the most-significant-first bit order loses nothing |
| Pixels.MaskSelectsBit | index.js:164-165 | `srcByte & mask` with mask 2^(7-t) tests bit t counted from the top |
| Pixels.LiteralMasks | index.js:148-155 | the literal masks 128, 64, ..., 1 test bits 0 to 7 from the top, in that order |
| Grayscale.RowWidth | index.js:139-141 | a row decodes at most width pixels and never needs more bytes than are left; with 0 < srcDiff <= ceil(width / 8) it uses every byte left |
| Grayscale.RowEnd | index.js:141 | the code's kEnd, negative for an exhausted source and read as 0 there, is the row width of the model |
| Grayscale.RowInSource | index.js:139-141 | a row that decodes any pixel starts r * ceil(width / 8) bytes in, and its bytes lie inside the source |
| Grayscale.ImageRowPixel | index.js:146-166 | pixel c of row r is bit c of the bit stream that starts at the row's first byte |
| Grayscale.EightPixelsDecode | index.js:147-155 | the unrolled loop's eight pixels of a byte are its eight bits, most significant first |
| Grayscale.DecodeWholeBytes | index.js:146-156 | the unrolled loop writes count pixels equal to the per-bit specification and fetches count / 8 bytes |
| Grayscale.DecodeTailBits | index.js:158-166 | the bit-mask loop writes count pixels equal to the per-bit specification and fetches a byte only when needed |
| Grayscale.RowSplit | index.js:141-142 | `kEnd & ~7` splits a row into whole bytes and a tail of fewer than 8 bits, both inside the bytes left |
| Grayscale.DecodeRow | index.js:139-166 | one row yields RowWidth pixels, each its bit of the stream, and advances the source by exactly the bytes it used |
| Grayscale.NextRowStart | index.js:146-160 | the next row starts where this row's decoded bytes end |
| Grayscale.DecodeImageRow | index.js:138-166 | decoding from row r's start yields exactly image row r and leaves the source at row r + 1's start |
| Grayscale.DecodeRows | index.js:138-167 | a chunk's row loop writes its rows back to back and leaves the source at the next chunk's first row |
| Grayscale.ZeroFill | index.js:169-171 | the written pixels are kept and every later slot up to the buffer size becomes the word 0 |
| Grayscale.FillChunk | index.js:135-171 | one chunk's buffer is its decoded rows then zeros, 16 rows in all |
| Grayscale.GrayscalePuts | index.js:126-174 | the grayscale branch makes one call per chunk, drawn at row 16 i and as wide as the image; what each call holds is stated by `GrayscalePixelIsSourceBit`, `GrayscalePixelPastRow` and `GrayscalePixelValues` |
| Grayscale.ShadeColours | index.js:131-132 | `Shade` turns a 1 bit into opaque white and a 0 bit into opaque black |
| Grayscale.PutGrayscale | index.js:126-174 | the grayscale branch makes exactly the calls of the per-bit specification |
| Grayscale.GrayscaleFullBuffers | index.js:128-129 | every grayscale call draws the whole 16-row buffer of width * 16 words, also for a partial last chunk |
| Grayscale.RowsFromBound | index.js:138-141 | n rows write at most n * width pixels, so a chunk never writes past its buffer |
| Grayscale.RowsFromShades | index.js:131-132 | every decoded pixel is exactly white or exactly black |
| Grayscale.ChunkSlot | index.js:169-171 | a buffer slot holds the p-th written pixel, or the zero word past the written ones |
| Grayscale.GrayscalePixelValues | index.js:131-171 | only white, black and the zero word reach the canvas, with the zero word exactly after the written part |
| Grayscale.EarlierRowsFull | index.js:139-141 | a row that decodes any pixel comes after rows that each decoded the full width |
| Grayscale.LaterRowsEmpty | index.js:139-141 | every row after a short row decodes nothing, because the short row used up the source |
| Grayscale.RowsFromAfterShort | index.js:138-167 | once a row of a chunk is short, the later rows of the chunk add no pixels to its buffer |
| Grayscale.GrayscalePixelPastRow | index.js:138-171 | in chunk i, every column of row j at or past the pixels that row decoded is the zero word (transparent), in bounds of the buffer |
| Grayscale.RowsFromFull | index.js:139-141 | rows before a row that decodes anything fill exactly n * width slots |
| Grayscale.RowsFromSlot | index.js:136-167 | within a chunk, pixel c of its row j lands at slot j * width + c |
| Grayscale.WrittenSlot | index.js:136-167 | pixel c of row j of chunk i is written at slot j * width + c |
| Grayscale.ChunkSlotOfRow | index.js:136-173 | the call for chunk i shows pixel c of its row j at slot j * width + c |
| Grayscale.RowPixelIsSourceBit | index.js:146-166 | pixel c of row r is bit c % 8, most significant first, of source byte r * ceil(width / 8) + c / 8 |
| Grayscale.GrayscalePixelIsSourceBit | index.js:126-173 | per-bit specification: the drawn pixel is white when its source bit is 1 and black when it is 0, at slot j * width + c of chunk i |
| Grayscale.GrayscaleRowConsumption | index.js:139-145 | a row with a byte to spare decodes the full width and consumes exactly ceil(width / 8) bytes; a shorter one decodes 8 srcDiff - 7 pixels and exhausts the source; an exhausted one decodes nothing |
| Grayscale.ExactSourceShortensLastRow | index.js:141 | an exactly-sized source decodes 8 * ceil(width / 8) - 7 pixels on its last row, the full width only when width % 8 == 1 |
| Rgb.RgbChunk | index.js:198-208 | a chunk's visible data is four bytes for each pixel of its rows |
| Rgb.RgbPuts | index.js:195-210 | one call per chunk, chunk i at row 16 i, each as wide as the image |
| Rgb.ExpandRun | index.js:203-208 | the inner loop writes the RGBA bytes of count pixels and advances the source by 3 * count bytes |
| Rgb.PutRgb | index.js:191-211 | the RGB branch makes exactly the specified calls and consumes exactly 3 * width * height source bytes |
| Rgb.RgbOpaque | index.js:207 | every drawn RGB pixel has alpha 255 |
| Rgb.RgbPixelDrawn | index.js:203-207 | on any source, each colour byte of pixel (r, c) is the source byte at 3p, 3p + 1 or 3p + 2 when the source reaches it and 0 past its end (`undefined` stored into the clamped array), and alpha is 255 |
| Rgb.RgbPixelPastSource | index.js:203-207 | a pixel whose source bytes lie past the end of a short source is drawn opaque black (0, 0, 0, 255) |
| Rgb.RgbPixelIsSource | index.js:203-207 | with a full source, pixel c of row r is source bytes 3p, 3p + 1, 3p + 2 with alpha 255, where p = r * width + c |
| Rgb.RgbChunkIsSlice | index.js:195-210 | chunk i is the slice of the expanded image that covers its rows |
| Rgb.RgbConcatenation | index.js:195-210 | the chunks read in order are the RGBA expansion of the first width * height pixels, row-major |
| Rgba.Subarray | index.js:180 | `subarray` clamps both ends: it is the plain slice when it fits, and never longer than asked |
| Rgba.ChunkStartStep | index.js:181 | srcPos advances one full buffer per full chunk |
| Rgba.ChunkBytes | index.js:177 | a chunk's bytes never exceed the 16-row buffer |
| Rgba.RgbaBuffer | index.js:180 | the reused buffer keeps its size through every copy |
| Rgba.RgbaPuts | index.js:179-190 | one call per chunk, chunk i at row 16 i, each as wide as the image |
| Rgba.RgbaChunkByte | index.js:180-188 | byte k of chunk i's call is the source byte at srcPos + k when the source reaches it, and otherwise the byte the reused buffer already held: 0 in the first chunk, the previous chunk's byte k after that |
| Rgba.RgbaByteAfterSource | index.js:180-188 | a chunk byte past the end of a short source is left over: 0 in the first chunk, the previous chunk's byte k after that |
| Rgba.PutFullChunk | index.js:179-184 | one pass of the full-chunk loop copies the chunk, advances srcPos and logs its call |
| Rgba.PutPartialChunk | index.js:186-190 | the tail logs the partial chunk exactly when there is one |
| Rgba.PutRgba | index.js:175-190 | the RGBA branch makes exactly the specified calls |
| Rgba.FullChunkBytes | index.js:177 | a full chunk's rows fill the whole buffer |
| Rgba.PartialChunkBytes | index.js:186-187 | the partial chunk is the last one and copies width * partialChunkHeight * 4 bytes |
| Rgba.RgbaChunkData | index.js:180-182 | when the source reaches past chunk i, its call shows exactly the source bytes it copied |
| Rgba.RgbaChunkIsSource | index.js:179-190 | with a full source, chunk i holds bytes 4 * width * 16 i up to the end of its rows |
| Rgba.RgbaCopiesSource | index.js:175-190 | the chunks read in order are exactly the first 4 * width * height source bytes |
| Rgba.RgbaPixelIsSource | index.js:175-190 | pixel c of row r is the four source bytes at 4 (r * width + c), unchanged |
| Decimal.NatText | index.js:213 | a whole number is written as decimal digits with no leading zero, as JavaScript writes one below 10^21 |
| Decimal.IntText | index.js:213 | an integer's text starts with '-' exactly when the integer is negative |
| Decimal.NatTextValue | index.js:213 | the digits read back to the number |
| Decimal.IntTextRoundTrip | index.js:213 | reading an integer's text back gives the integer |
| Decimal.IntTextInjective | index.js:213 | distinct kinds give distinct messages |
| Decoder.Message | index.js:213 | a bad kind's message is "bad image kind: " followed by text that reads back to the kind |
| Decoder.PutBinaryImageData | index.js:108-215 | the decoder fails exactly on a zero width or an unknown kind, with that error and no call; an `ImageData` is put once at the origin; otherwise one call per chunk, chunk i at row 16 i |
| Decoder.Draw | index.js:108-215 | running the branch loops gives exactly the decoder's result |
| Decoder.EveryRowDrawnOnce | index.js:116-118 | every image row lies in the call at index row / 16 and in no other |
| Collector.Image | index.js:70-74 | an element becomes a forwarded output and a record a drawn one |
| Collector.Route | index.js:69-77 | one entry pushes at most one output |
| Collector.PageImages | index.js:68-78 | a page pushes at most one output per entry |
| Collector.RouteKept | index.js:69-77 | an entry pushes its image exactly when it is kept: an element always, a record when drawing does not throw, anything else never |
| Collector.PageImagesLength | index.js:68-78 | a page pushes exactly one output per kept entry |
| Collector.PageImagesAppend | index.js:68 | routing two runs of entries pushes their outputs one after the other |
| Collector.ImageAtPosition | index.js:68-78 | kept entry i's image sits at the position after the kept entries before it |
| Collector.PositionsIncrease | index.js:68-78 | kept entries keep their relative order |
| Collector.ForwardedIffPresent | index.js:70-72 | an element is forwarded by a page exactly when the page holds it |
| Collector.OutputHasSource | index.js:68-78 | every output comes from some kept entry at that position |
| Collector.PushEntry | index.js:69-77 | one pass of the `forEach` pushes the entry's image exactly when it is kept |
| Collector.CollectPage | index.js:68-78 | the `forEach` appends exactly the page's outputs to the shared list |
| Collector.Kept | index.js:68-77 | an entry is kept exactly when routing it pushes one output |
| Collector.DocumentImages | index.js:44-54 | a failed document names a page that failed, and every page numbered above it loaded; a document that succeeds had every page load |
| Collector.SuffixFailure | index.js:47-53 | a failure among the pages requested first is the document's failure, under the page's own number |
| Collector.DocumentFailsIffPageFails | index.js:44-54 | the document fails exactly when some page fails |
| Collector.DocumentForwardsIffPresent | index.js:44-54 | an element is in the document's list exactly when some page holds it |
| Collector.PdfImages | index.js:44-54 | the page loop, from the last page to the first, gives exactly the document's result: its list, or the first page requested that fails |

## Left out

- I/O and the page (index.js:1-42): the start-up code, the URL fetch, `FileReader`, the input event and the DOM appends. So is pdf.js itself: `getDocument`, `getPage`, `getOperatorList` and the object table. A page is given as its list of entries, or as a failure.
- `imageDataToImage` (index.js:82-91): the canvas, its size and the `toDataURL` PNG encoding belong to the browser. An image is modelled as its size plus the calls drawn on its canvas.
- `isLittleEndian` (index.js:101-106): the probe only picks the black word's byte order. The model writes the bytes (0, 0, 0, 255) instead.
- Rows below the image in the RGB and RGBA branches: the calls record only a chunk's first `thisChunkHeight` rows. The rest of the reused 16-row buffer holds stale bytes. They fall below the canvas, which is exactly `height` rows tall, and are clipped. The grayscale branch zero-fills, so its calls record the whole buffer.
- Order across pages: all pages are requested at once, and each page pushes when its operator list arrives. `Collector.DocumentImages` fixes one interleaving: the pages in request order, last page first. The membership lemma `DocumentForwardsIffPresent` does not depend on it.
- Logging with `console.log` (index.js:76): it has no effect on the result.
- Kinds that are not integers: the kind is compared with `===`. The model takes an integer kind, so a string such as "1" cannot be written.
- 32-bit integer arithmetic: `width + 7 >> 3` and `kEnd & ~7` are modelled as `(width + 7) / 8` and `kEnd - kEnd % 8`. These agree for the widths and row lengths a canvas accepts. Widths of 2^31 or more are not modelled.
- Collector.PdfImages: a rejected page's number is reported, not the rejection's reason. Which rejection `Promise.all` reports depends on timing. The model reports the first page requested that fails, the highest-numbered one.
- Decimal.NatText: every whole number is written in plain digits. JavaScript writes magnitudes of 10^21 and more in exponent form ("1e+21"), and above 2^53 a kind is not held exactly. The message text agrees with JavaScript only for kinds below 10^21 in magnitude.

=== FILE: basics.dfy ===
/**
  Row-major offsets, and facts about whole-number arithmetic and sequences that the proofs
  of the model lean on.
*/
module Basics {

  /** Offset of element `c` of row `row` in a row-major buffer whose rows are `width` long. */
  function Slot(width: nat, row: nat, c: nat): nat
  {
    row * width + c
  }

  /** A prefix one longer is the prefix and the next element. */
  lemma PrefixSnoc<T>(s: seq<T>, i: nat)
    requires i < |s|
    ensures s[..i + 1] == s[..i] + [s[i]]
  {
  }

  /** The middle part of a three-way concatenation. */
  lemma MiddleSlice<T>(x: seq<T>, y: seq<T>, z: seq<T>)
    ensures (x + y + z)[|x| .. |x| + |y|] == y
  {
  }

  /** Multiplying by the same factor keeps the order. */
  lemma MulLe(a: nat, b: nat, m: nat)
    requires a <= b
    ensures a * m <= b * m
  {
    assert b * m == a * m + (b - a) * m;
  }

  /** Multiplication regroups. */
  lemma MulAssoc(a: nat, b: nat, c: nat)
    ensures a * b * c == a * (b * c)
  {
  }

  /** Multiplication distributes over addition. */
  lemma MulDist(a: nat, b: nat, c: nat)
    ensures a * b + a * c == a * (b + c)
  {
  }

  /** Euclidean division is determined by any quotient/remainder pair. */
  lemma DivUnique(x: nat, m: nat, q: nat, r: nat)
    requires m > 0 && r < m && x == q * m + r
    ensures x / m == q && x % m == r
  {
    var q', r' := x / m, x % m;
    if q' > q {
      MulLe(q + 1, q', m);
      assert false;
    } else if q' < q {
      MulLe(q' + 1, q, m);
      assert false;
    }
  }

  /** Dividing twice is dividing once by the product. */
  lemma DivDiv(x: nat, m: nat, n: nat)
    requires m > 0 && n > 0
    ensures x / m / n == x / (m * n)
  {
    var q, r := x / (m * n), x % (m * n);
    var u, v := r / m, r % m;
    assert u < n by {
      if u >= n {
        MulLe(n, u, m);
        assert false;
      }
    }
    assert x == (q * n + u) * m + v by {
      assert x == q * (m * n) + r;
      assert q * (m * n) == (q * n) * m;
      assert (q * n + u) * m == (q * n) * m + u * m;
    }
    var k := Slot(n, q, u);
    DivUnique(x, m, k, v);
    DivUnique(k, n, q, u);
  }
}

=== FILE: canvas.dfy ===
/**
  The canvas side of the decoder: `ImageData` buffers and the log of
  `putImageData(image, 0, dy)` calls that the decoder makes.
*/
module Canvas {
  import opened Basics
  import opened Pixels
  import opened Chunking

  /** A canvas `ImageData`: its size in pixels and its RGBA bytes. */
  datatype ImageData = ImageData(width: nat, height: nat, data: seq<byte>)

  /** One `ctx.putImageData(image, 0, dy)` call; every call the decoder makes uses x = 0. */
  datatype Put = Put(dy: nat, image: ImageData)

  /** The bytes of all logged images, one after the other. */
  function Concatenated(puts: seq<Put>): seq<byte>
  {
    if |puts| == 0 then [] else Concatenated(puts[..|puts| - 1]) + puts[|puts| - 1].image.data
  }

  /**
    Chunk `i` holds the bytes of rows `ChunkRow(i)` .. `ChunkRow(i) + ChunkHeight(height,
    i) - 1` of `whole`, for rows of `rowLength` bytes.
  */
  ghost predicate ChunkHoldsRows(puts: seq<Put>, whole: seq<byte>, rowLength: nat, height: nat,
      i: nat)
    requires i < |puts| && i < TotalChunks(height)
  {
    && rowLength * (ChunkRow(i) + ChunkHeight(height, i)) <= |whole|
    && puts[i].image.data
        == whole[rowLength * ChunkRow(i) .. rowLength * (ChunkRow(i) + ChunkHeight(height, i))]
  }

  /**
    When every chunk holds its own rows of `whole`, the chunks handed to the
    canvas, read one after the other, are exactly the first `height` rows of
    `whole`: nothing is skipped, repeated or reordered.
  */
  lemma {:induction false} ConcatenatedRows(puts: seq<Put>, whole: seq<byte>, rowLength: nat,
      height: nat, n: nat)
    requires |puts| == TotalChunks(height) && n <= |puts|
    requires forall i :: 0 <= i < |puts| ==> ChunkHoldsRows(puts, whole, rowLength, height, i)
    ensures rowLength * RowsBefore(height, n) <= |whole|
    ensures Concatenated(puts[..n]) == whole[..rowLength * RowsBefore(height, n)]
  {
    if n > 0 {
      ConcatenatedRows(puts, whole, rowLength, height, n - 1);
      ConcatenatedNext(puts, whole, rowLength, height, n);
    } else {
      assert rowLength * RowsBefore(height, 0) == 0;
    }
  }

  /** One more chunk that holds its rows extends the concatenated prefix by exactly those rows. */
  lemma ConcatenatedNext(puts: seq<Put>, whole: seq<byte>, rowLength: nat, height: nat, n: nat)
    requires |puts| == TotalChunks(height) && 0 < n <= |puts|
    requires ChunkHoldsRows(puts, whole, rowLength, height, n - 1)
    requires rowLength * RowsBefore(height, n - 1) <= |whole|
    requires Concatenated(puts[..n - 1]) == whole[..rowLength * RowsBefore(height, n - 1)]
    ensures rowLength * RowsBefore(height, n) <= |whole|
    ensures Concatenated(puts[..n]) == whole[..rowLength * RowsBefore(height, n)]
  {
    RowsBeforeChunk(height, n - 1);
    var before, chunk := RowsBefore(height, n - 1), ChunkHeight(height, n - 1);
    assert RowsBefore(height, n) == before + chunk;
    assert before == ChunkRow(n - 1);
    var lo, hi := rowLength * ChunkRow(n - 1), rowLength * (ChunkRow(n - 1) + chunk);
    assert lo <= hi <= |whole| && puts[n - 1].image.data == whole[lo..hi];
    assert puts[..n] == puts[..n - 1] + [puts[n - 1]];
    assert Concatenated(puts[..n]) == whole[..lo] + whole[lo..hi];
    assert whole[..lo] + whole[lo..hi] == whole[..hi];
  }

  /**
    Pixel `c` of row `r`, counted row-major over the whole image, lands in
    chunk r/16 at slot (r%16)*width + c of that chunk's rows.
  */
  lemma PixelInChunk(width: nat, height: nat, r: nat, c: nat)
    requires r < height && c < width
    ensures r / FullChunkHeight < TotalChunks(height)
    ensures Slot(width, r % FullChunkHeight, c) < width * ChunkHeight(height, r / FullChunkHeight)
    ensures width * ChunkRow(r / FullChunkHeight) + Slot(width, r % FullChunkHeight, c)
            == Slot(width, r, c)
    ensures Slot(width, r, c) < width * height
  {
    RowInOneChunk(height, r);
    var i, k := r / FullChunkHeight, r % FullChunkHeight;
    assert ChunkRow(i) + k == r;
    MulLe(k + 1, ChunkHeight(height, i), width);
    assert (k + 1) * width == k * width + width;
    MulLe(r + 1, height, width);
    assert (r + 1) * width == r * width + width;
    assert width * ChunkRow(i) + k * width == r * width by {
      assert (ChunkRow(i) + k) * width == ChunkRow(i) * width + k * width;
    }
  }

  /**
    Chunk `i` spans pixels width*ChunkRow(i) .. width*ChunkRow(i) + width*ChunkHeight(height, i)
    of the image, and four times that in bytes.
  */
  lemma ChunkSpan(width: nat, height: nat, i: nat)
    requires i < TotalChunks(height)
    ensures width * ChunkRow(i) + width * ChunkHeight(height, i) <= width * height
    ensures 4 * width * ChunkRow(i) == 4 * (width * ChunkRow(i))
    ensures 4 * width * (ChunkRow(i) + ChunkHeight(height, i))
            == 4 * (width * ChunkRow(i) + width * ChunkHeight(height, i))
  {
    ChunkBounds(height, i);
    var row, rows := ChunkRow(i), ChunkHeight(height, i);
    MulLe(row + rows, height, width);
    assert (row + rows) * width == width * row + width * rows;
    MulAssoc(4, width, row);
    MulAssoc(4, width, row + rows);
  }
}

=== FILE: chunking.dfy ===
/**
  The row-chunking arithmetic shared by every pixel kind.

  The decoder never materialises the whole bitmap: it fills a buffer of
  `FullChunkHeight` rows, hands it to the canvas at the chunk's first row, and
  reuses the buffer for the next slice.  `height` rows are split into
  `FullChunks` chunks of 16 rows followed, when 16 does not divide the
  height, by one partial chunk of `PartialChunkHeight` rows.
*/
module Chunking {

  /** Rows per chunk buffer. */
  const FullChunkHeight: nat := 16

  /** Rows in the trailing partial chunk (0 when there is none). */
  function PartialChunkHeight(height: nat): nat
  {
    height % FullChunkHeight
  }

  /** Number of chunks holding a full 16 rows. */
  function FullChunks(height: nat): nat
  {
    (height - PartialChunkHeight(height)) / FullChunkHeight
  }

  /** Number of chunks handed to the canvas. */
  function TotalChunks(height: nat): nat
  {
    if PartialChunkHeight(height) == 0 then FullChunks(height) else FullChunks(height) + 1
  }

  /** Rows in chunk `i` (`thisChunkHeight`). */
  function ChunkHeight(height: nat, i: nat): nat
  {
    if i < FullChunks(height) then FullChunkHeight else PartialChunkHeight(height)
  }

  /** The image row at which chunk `i` is drawn. */
  function ChunkRow(i: nat): nat
  {
    i * FullChunkHeight
  }

  /** Rows covered by chunks 0 .. n-1 together. */
  function RowsBefore(height: nat, n: nat): nat
  {
    if n == 0 then 0 else RowsBefore(height, n - 1) + ChunkHeight(height, n - 1)
  }

  /**
    The split is exact: full chunks plus the partial rows give the height, and the chunk
    count is the height divided by 16, rounded up.
  */
  lemma ChunkArithmetic(height: nat)
    ensures FullChunks(height) * FullChunkHeight + PartialChunkHeight(height) == height
    ensures PartialChunkHeight(height) < FullChunkHeight
    ensures TotalChunks(height) == (height + FullChunkHeight - 1) / FullChunkHeight
    ensures TotalChunks(height) * FullChunkHeight >= height
    ensures height > 0 ==> (TotalChunks(height) - 1) * FullChunkHeight < height
  {
  }

  /**
    Every emitted chunk is non-empty, lies inside the image, and only the last one can be
    shorter than 16 rows; the last one ends exactly at the bottom row.
  */
  lemma ChunkBounds(height: nat, i: nat)
    requires i < TotalChunks(height)
    ensures 1 <= ChunkHeight(height, i) <= FullChunkHeight
    ensures ChunkRow(i) + ChunkHeight(height, i) <= height
    ensures i + 1 < TotalChunks(height) ==> ChunkHeight(height, i) == FullChunkHeight
    ensures i + 1 == TotalChunks(height) ==> ChunkRow(i) + ChunkHeight(height, i) == height
    ensures i + 1 == TotalChunks(height) ==>
      ChunkHeight(height, i)
          == (if height % FullChunkHeight == 0 then FullChunkHeight else height % FullChunkHeight)
  {
    ChunkArithmetic(height);
  }

  /** Every chunk but the last is followed directly by the next one. */
  lemma NextChunkRow(height: nat, i: nat)
    requires i + 1 < TotalChunks(height)
    ensures ChunkRow(i) + ChunkHeight(height, i) == ChunkRow(i + 1)
  {
    ChunkArithmetic(height);
  }

  /**
    Chunks are contiguous: the rows of the chunks before chunk `n` end exactly where chunk
    `n` starts, and all chunks together cover exactly `height` rows.
  */
  lemma {:induction false} RowsBeforeChunk(height: nat, n: nat)
    requires n <= TotalChunks(height)
    ensures n < TotalChunks(height) ==> RowsBefore(height, n) == ChunkRow(n)
    ensures n == TotalChunks(height) ==> RowsBefore(height, n) == height
    ensures RowsBefore(height, n) <= height
  {
    ChunkArithmetic(height);
    if n > 0 {
      RowsBeforeChunk(height, n - 1);
      ChunkBounds(height, n - 1);
    }
  }

  /** Each image row is drawn by exactly one chunk, chunk `row / 16`. */
  lemma RowInOneChunk(height: nat, row: nat)
    requires row < height
    ensures row / FullChunkHeight < TotalChunks(height)
    ensures ChunkRow(row / FullChunkHeight) <= row
            < ChunkRow(row / FullChunkHeight) + ChunkHeight(height, row / FullChunkHeight)
    ensures forall i: nat ::
              i < TotalChunks(height) && ChunkRow(i) <= row < ChunkRow(i) + ChunkHeight(height, i)
              ==> i == row / FullChunkHeight
  {
    ChunkArithmetic(height);
  }
}

=== FILE: collector.dfy ===
/**
  `pdfPageImages` and `pdfImages`: which of a page's objects become output
  images, and how the pages' outputs are gathered into one list.
*/
module Collector {
  import opened Wrappers
  import opened Canvas
  import opened Decoder

  /**
    One object of a page's object table, by what its `data` is: an image
    element pdf.js already built, a raw image record (its `data` is a
    `Uint8ClampedArray`), or anything else.
  */
  datatype Entry<H> = PreRendered(handle: H) | Raw(source: ImageSource) | Other

  /**
    One output image: a forwarded element, or a canvas of the record's size with the calls
    drawn on it.
  */
  datatype Output<H> = Forwarded(handle: H) | Rendered(width: nat, height: nat, puts: seq<Put>)

  /** A page as its promise settles: its object table, or a rejection. */
  datatype Page<H> = Loaded(entries: seq<Entry<H>>) | LoadFailed

  /**
    Whether an entry contributes an image: elements always, records when decoding does not
    throw.
  */
  function Kept<H>(e: Entry<H>): (kept: bool)
    ensures kept <==> |Route(e)| == 1
  {
    match e
    case PreRendered(_) => true
    case Raw(source) => PutBinaryImageData(source).Success?
    case Other => false
  }

  /** The image a kept entry contributes. */
  function Image<H>(e: Entry<H>): (out: Output<H>)
    requires Kept(e)
    ensures e.PreRendered? <==> out.Forwarded?
  {
    match e
    case PreRendered(handle) => Forwarded(handle)
    case Raw(source) => Rendered(source.Width(), source.Height(), PutBinaryImageData(source).value)
  }

  /** What one entry pushes onto the result list. */
  function Route<H>(e: Entry<H>): (pushed: seq<Output<H>>)
    ensures |pushed| <= 1
  {
    match e
    case PreRendered(handle) => [Forwarded(handle)]
    case Raw(source) =>
      (match PutBinaryImageData(source)
       case Success(puts) => [Rendered(source.Width(), source.Height(), puts)]
       case Failure(_) => [])
    case Other => []
  }

  /** What one page pushes, in the order of its object table. */
  function PageImages<H>(entries: seq<Entry<H>>): (out: seq<Output<H>>)
    ensures |out| <= |entries|
  {
    if |entries| == 0 then []
        else PageImages(entries[..|entries| - 1]) + Route(entries[|entries| - 1])
  }

  /** How many of the entries are kept. */
  function KeptCount<H>(entries: seq<Entry<H>>): nat
  {
    if |entries| == 0 then 0
        else KeptCount(entries[..|entries| - 1]) + (if Kept(entries[|entries| - 1]) then 1 else 0)
  }

  /** Where entry `i`'s image lands: after the images of the kept entries before it. */
  function Position<H>(entries: seq<Entry<H>>, i: nat): nat
    requires i <= |entries|
  {
    KeptCount(entries[..i])
  }

  /** Routing one entry pushes its image exactly when it is kept. */
  lemma RouteKept<H>(e: Entry<H>)
    ensures Kept(e) ==> Route(e) == [Image(e)]
    ensures !Kept(e) ==> Route(e) == []
  {
    match e
    case PreRendered(_) =>
    case Raw(source) =>
    case Other =>
  }

  /** A page's images are one per kept entry. */
  lemma {:induction false} PageImagesLength<H>(entries: seq<Entry<H>>)
    ensures |PageImages(entries)| == KeptCount(entries)
  {
    if |entries| > 0 {
      PageImagesLength(entries[..|entries| - 1]);
      RouteKept(entries[|entries| - 1]);
    }
  }

  /** Routing two runs of entries one after the other pushes their images one after the other. */
  lemma {:induction false} PageImagesAppend<H>(xs: seq<Entry<H>>, ys: seq<Entry<H>>)
    ensures PageImages(xs + ys) == PageImages(xs) + PageImages(ys)
    decreases |ys|
  {
    if |ys| > 0 {
      assert (xs + ys)[..|xs + ys| - 1] == xs + ys[..|ys| - 1];
      PageImagesAppend(xs, ys[..|ys| - 1]);
    } else {
      assert xs + ys == xs;
    }
  }

  /** A run that starts with a kept entry starts its images with that entry's image. */
  lemma FirstImage<H>(entries: seq<Entry<H>>)
    requires |entries| > 0 && Kept(entries[0])
    ensures |PageImages(entries)| > 0 && PageImages(entries)[0] == Image(entries[0])
  {
    var e := entries[0];
    assert entries == [e] + entries[1..];
    PageImagesAppend([e], entries[1..]);
    assert [e][..0] == [];
    RouteKept(e);
  }

  /** Kept entry `i` contributes its image at `Position(entries, i)`. */
  lemma ImageAtPosition<H>(entries: seq<Entry<H>>, i: nat)
    requires i < |entries| && Kept(entries[i])
    ensures Position(entries, i) < |PageImages(entries)|
    ensures PageImages(entries)[Position(entries, i)] == Image(entries[i])
  {
    var before, rest := entries[..i], entries[i..];
    assert entries == before + rest;
    PageImagesAppend(before, rest);
    PageImagesLength(before);
    FirstImage(rest);
    var xs, ys := PageImages(before), PageImages(rest);
    assert (xs + ys)[|xs|] == ys[0];
  }

  /** Kept entries keep their relative order: a later kept entry lands strictly later. */
  lemma {:induction false} PositionsIncrease<H>(entries: seq<Entry<H>>, i: nat, j: nat)
    requires i < j <= |entries| && Kept(entries[i])
    ensures Position(entries, i) < Position(entries, j)
    decreases j
  {
    if j == i + 1 {
      assert entries[..j][..i] == entries[..i];
    } else {
      PositionsIncrease(entries, i, j - 1);
      assert entries[..j][..j - 1] == entries[..j - 1];
    }
  }

  /** An element is forwarded by a page exactly when the page holds it. */
  lemma {:induction false} ForwardedIffPresent<H>(entries: seq<Entry<H>>, h: H)
    ensures Forwarded(h) in PageImages(entries) <==> PreRendered(h) in entries
  {
    if |entries| > 0 {
      var init, last := entries[..|entries| - 1], entries[|entries| - 1];
      ForwardedIffPresent(init, h);
      assert entries == init + [last];
    }
  }

  /** Every output image comes from some kept entry of the page. */
  lemma {:induction false} OutputHasSource<H>(entries: seq<Entry<H>>, k: nat)
    requires k < |PageImages(entries)|
    ensures exists i :: 0 <= i < |entries| && Kept(entries[i]) && Position(entries, i) == k
  {
    var init, last := entries[..|entries| - 1], entries[|entries| - 1];
    assert entries[..|entries| - 1] == init;
    PageImagesLength(init);
    if k < |PageImages(init)| {
      OutputHasSource(init, k);
      var i :| 0 <= i < |init| && Kept(init[i]) && Position(init, i) == k;
      assert entries[..i] == init[..i];
      assert entries[i] == init[i];
    } else {
      RouteKept(last);
      assert Kept(last);
      assert entries[..|entries| - 1] == init;
      assert Position(entries, |entries| - 1) == k;
    }
  }

  /**
    The body of the `forEach`: an element is pushed as it is, a raw record is drawn and
    pushed unless drawing throws.
  */
  method PushEntry<H>(e: Entry<H>, refSet: seq<Output<H>>) returns (pushed: seq<Output<H>>)
    ensures Kept(e) ==> pushed == refSet + [Image(e)]
    ensures !Kept(e) ==> pushed == refSet
  {
    pushed := refSet;
    if e.PreRendered? {
      pushed := pushed + [Forwarded(e.handle)];
    }
    if e.Raw? {
      var r := Draw(e.source);
      if r.Success? {
        pushed := pushed + [Rendered(e.source.Width(), e.source.Height(), r.value)];
      }
    }
  }

  /**
    The `forEach` over the page's objects: each entry's image, if any, is
    pushed onto the shared list.
  */
  method CollectPage<H>(entries: seq<Entry<H>>, refSet: seq<Output<H>>)
    returns (pushed: seq<Output<H>>)
    ensures pushed == refSet + PageImages(entries)
  {
    pushed := refSet;
    var k := 0;
    while k < |entries|
      invariant k <= |entries|
      invariant pushed == refSet + PageImages(entries[..k])
    {
      var e := entries[k];
      assert entries[..k + 1][..k] == entries[..k];
      assert PageImages(entries[..k + 1]) == PageImages(entries[..k]) + Route(e);
      RouteKept(e);
      pushed := PushEntry(e, pushed);
      k := k + 1;
    }
    assert entries[..k] == entries;
  }

  /**
    The images of a document whose page `n` is `pages[n - 1]`: pages are
    visited from the last to the first, and one rejected page rejects the
    whole list.  The rejection reported is that of the first page requested
    that fails, which is the highest-numbered one.
  */
  function DocumentImages<H>(pages: seq<Page<H>>): (r: Result<seq<Output<H>>, nat>)
    ensures r.Failure? ==> 1 <= r.error <= |pages| && pages[r.error - 1].LoadFailed?
    ensures r.Success? ==> forall n :: 0 <= n < |pages| ==> pages[n].Loaded?
    ensures r.Failure? ==> forall n :: r.error <= n < |pages| ==> pages[n].Loaded?
  {
    if |pages| == 0 then Success([])
    else
      match DocumentImages(pages[1..])
      case Failure(n) => Failure(n + 1)
      case Success(later) =>
        if pages[0].LoadFailed? then Failure(1) else Success(later + PageImages(pages[0].entries))
  }

  /** A failure of the pages from `j` on is the document's failure, renumbered. */
  lemma {:induction false} SuffixFailure<H>(pages: seq<Page<H>>, j: nat)
    requires j <= |pages| && DocumentImages(pages[j..]).Failure?
    ensures DocumentImages(pages) == Failure(DocumentImages(pages[j..]).error + j)
  {
    if j > 0 {
      assert pages[j - 1..][1..] == pages[j..];
      SuffixFailure(pages, j - 1);
    } else {
      assert pages[0..] == pages;
    }
  }

  /** The document fails exactly when some page fails. */
  lemma {:induction false} DocumentFailsIffPageFails<H>(pages: seq<Page<H>>)
    ensures DocumentImages(pages).Failure? <==> exists n :: 0 <= n < |pages| && pages[n].LoadFailed?
  {
    if |pages| > 0 {
      DocumentFailsIffPageFails(pages[1..]);
      if exists n :: 0 <= n < |pages| && pages[n].LoadFailed? {
        var n :| 0 <= n < |pages| && pages[n].LoadFailed?;
        if n > 0 {
          assert pages[1..][n - 1].LoadFailed?;
        }
      }
      if exists n :: 0 <= n < |pages[1..]| && pages[1..][n].LoadFailed? {
        var n :| 0 <= n < |pages[1..]| && pages[1..][n].LoadFailed?;
        assert pages[n + 1].LoadFailed?;
      }
    }
  }

  /** An element is in the document's list exactly when some page holds it. */
  lemma {:induction false} DocumentForwardsIffPresent<H>(pages: seq<Page<H>>, h: H)
    requires DocumentImages(pages).Success?
    ensures Forwarded(h) in DocumentImages(pages).value
        <==> exists n :: 0 <= n < |pages| && pages[n].Loaded? && PreRendered(h) in pages[n].entries
  {
    if |pages| > 0 {
      DocumentForwardsIffPresent(pages[1..], h);
      ForwardedIffPresent(pages[0].entries, h);
      if exists n :: 0 <= n < |pages| && pages[n].Loaded? && PreRendered(h) in pages[n].entries {
        var n :| 0 <= n < |pages| && pages[n].Loaded? && PreRendered(h) in pages[n].entries;
        if n > 0 {
          assert pages[1..][n - 1] == pages[n];
        }
      }
      if exists n :: 0 <= n < |pages[1..]| && pages[1..][n].Loaded?
          && PreRendered(h) in pages[1..][n].entries {
        var n :| 0 <= n < |pages[1..]| && pages[1..][n].Loaded?
            && PreRendered(h) in pages[1..][n].entries;
        assert pages[n + 1] == pages[1..][n];
      }
    }
  }

  /**
    `pdfImages` as a plain loop: for i = numPages down to 1, page i's images
    are pushed onto the shared list; the list is returned once every page has
    settled, and the first rejected page (reported by its number) rejects it all.
  */
  method PdfImages<H>(pages: seq<Page<H>>) returns (r: Result<seq<Output<H>>, nat>)
    ensures r == DocumentImages(pages)
  {
    var refSet: seq<Output<H>> := [];
    var i := |pages|;
    assert pages[i..] == [];
    while i != 0
      invariant 0 <= i <= |pages|
      invariant DocumentImages(pages[i..]) == Success(refSet)
    {
      assert pages[i - 1..][1..] == pages[i..];
      if pages[i - 1].LoadFailed? {
        SuffixFailure(pages, i - 1);
        return Failure(i);
      }
      refSet := CollectPage(pages[i - 1].entries, refSet);
      i := i - 1;
    }
    assert pages[0..] == pages;
    r := Success(refSet);
  }
}

=== FILE: decimal.dfy ===
/**
  The decimal text of an integer: an optional minus sign, then digits with no
  leading zero.  This is how JavaScript's string conversion writes a whole
  number whose magnitude is below 10^21; from 10^21 on JavaScript switches to
  exponent form ("1e+21"), which this module does not model.  Used for the
  "bad image kind: <kind>" message.
*/
module Decimal {
  import opened Wrappers

  predicate IsDigit(ch: char)
  {
    '0' <= ch <= '9'
  }

  function DigitChar(d: nat): (ch: char)
    requires d < 10
    ensures IsDigit(ch)
  {
    (48 + d) as char
  }

  function DigitValue(ch: char): (d: nat)
    requires IsDigit(ch)
    ensures d < 10
  {
    ch as int - 48
  }

  /** The digits of `n`, most significant first. */
  function NatText(n: nat): (s: string)
    ensures 1 <= |s|
    ensures forall k :: 0 <= k < |s| ==> IsDigit(s[k])
    ensures |s| > 1 ==> s[0] != '0'
  {
    if n < 10 then [DigitChar(n)] else NatText(n / 10) + [DigitChar(n % 10)]
  }

  /** The value of a string of digits. */
  function DigitsValue(s: string): nat
    requires forall k :: 0 <= k < |s| ==> IsDigit(s[k])
  {
    if |s| == 0 then 0 else 10 * DigitsValue(s[..|s| - 1]) + DigitValue(s[|s| - 1])
  }

  /** `String(k)` for a whole number `k`. */
  function IntText(k: int): (s: string)
    ensures 1 <= |s|
    ensures k < 0 <==> s[0] == '-'
  {
    if k < 0 then "-" + NatText(-k) else NatText(k)
  }

  /** Reads back a string written by `IntText`; anything else is refused. */
  function ParseInt(s: string): (r: Result<int, string>)
  {
    if |s| > 0 && s[0] == '-' then
      if |s| > 1 && forall k :: 1 <= k < |s| ==> IsDigit(s[k])
      then Success(0 - DigitsValue(s[1..]) as int)
      else Failure(s)
    else if |s| > 0 && forall k :: 0 <= k < |s| ==> IsDigit(s[k])
    then Success(DigitsValue(s))
    else Failure(s)
  }

  /** The digits of `n` read back to `n`. */
  lemma {:induction false} NatTextValue(n: nat)
    ensures DigitsValue(NatText(n)) == n
  {
    if n >= 10 {
      NatTextValue(n / 10);
      var s := NatText(n);
      assert s[..|s| - 1] == NatText(n / 10);
    }
  }

  /** Writing an integer and reading it back gives the integer. */
  lemma IntTextRoundTrip(k: int)
    ensures ParseInt(IntText(k)) == Success(k)
  {
    if k < 0 {
      var s, digits := IntText(k), NatText(-k);
      NatTextValue(-k);
      assert s[1..] == digits;
      forall j | 1 <= j < |s|
        ensures IsDigit(s[j])
      {
        assert s[j] == digits[j - 1];
      }
    } else {
      NatTextValue(k);
    }
  }

  /** Distinct integers have distinct texts. */
  lemma IntTextInjective(j: int, k: int)
    requires IntText(j) == IntText(k)
    ensures j == k
  {
    IntTextRoundTrip(j);
    IntTextRoundTrip(k);
  }
}

=== FILE: decoder.dfy ===
/**
  `putBinaryImageData`: draws one decoded PDF image onto a canvas context,
  either as a ready `ImageData` or by unpacking its pixel kind chunk by chunk.
*/
module Decoder {
  import opened Wrappers
  import opened Chunking
  import opened Canvas
  import Pixels
  import Grayscale
  import Rgb
  import Rgba
  import Decimal

  /** The `ImageKind` codes. */
  const Grayscale1Bpp: int := 1
  const Rgb24Bpp: int := 2
  const Rgba32Bpp: int := 3

  predicate KnownKind(kind: int)
  {
    kind == Grayscale1Bpp || kind == Rgb24Bpp || kind == Rgba32Bpp
  }

  /** What the decoder is handed: a canvas `ImageData`, or a packed image record. */
  datatype ImageSource =
    | NativeImage(image: ImageData)
    | Packed(width: nat, height: nat, kind: int, data: seq<Pixels.byte>)
  {
    function Width(): nat
    {
      match this
      case NativeImage(image) => image.width
      case Packed(width, _, _, _) => width
    }

    function Height(): nat
    {
      match this
      case NativeImage(image) => image.height
      case Packed(_, height, _, _) => height
    }
  }

  /**
    What the decoder throws: `createImageData(0, 16)` rejects a zero width
    before the kind is looked at; an unknown kind is rejected after.
  */
  datatype DecodeError = ZeroWidth | BadImageKind(kind: int)

  const BadKindPrefix: string := "bad image kind: "

  /**
    The thrown error as text: for a zero width the name of the `DOMException`
    (its message differs between browsers), for a bad kind the message, which
    carries the kind in decimal.
  */
  function Message(e: DecodeError): (m: string)
    ensures e.ZeroWidth? ==> m == "IndexSizeError"
    ensures e.BadImageKind? ==> |BadKindPrefix| < |m| && m[..|BadKindPrefix|] == BadKindPrefix
    ensures e.BadImageKind? ==> Decimal.ParseInt(m[|BadKindPrefix|..]) == Success(e.kind)
  {
    match e
    case ZeroWidth => "IndexSizeError"
    case BadImageKind(kind) =>
      Decimal.IntTextRoundTrip(kind);
      var m := BadKindPrefix + Decimal.IntText(kind);
      assert m[|BadKindPrefix|..] == Decimal.IntText(kind);
      m
  }

  /**
    The calls `putBinaryImageData` makes, or the error it throws before
    making any: an `ImageData` is put once at the origin; otherwise the kind
    selects the grayscale, RGBA or RGB unpacking, compared in that order.
  */
  function PutBinaryImageData(s: ImageSource): (r: Result<seq<Put>, DecodeError>)
    ensures r.Failure? <==> s.Packed? && (s.width == 0 || !KnownKind(s.kind))
    ensures r.Failure? ==> r.error == (if s.width == 0 then ZeroWidth else BadImageKind(s.kind))
    ensures s.NativeImage? ==> r == Success([Put(0, s.image)])
    ensures s.Packed? && r.Success? ==> |r.value| == TotalChunks(s.height)
    ensures s.Packed? && r.Success? ==>
      forall i :: 0 <= i < |r.value| ==>
        r.value[i].dy == ChunkRow(i) && r.value[i].image.width == s.width
  {
    match s
    case NativeImage(image) => Success([Put(0, image)])
    case Packed(width, height, kind, data) =>
      if width == 0 then Failure(ZeroWidth)
      else if kind == Grayscale1Bpp then
        Success(Grayscale.GrayscalePuts(data, width, height))
      else if kind == Rgba32Bpp then Success(Rgba.RgbaPuts(data, width, height))
      else if kind == Rgb24Bpp then Success(Rgb.RgbPuts(data, width, height))
      else Failure(BadImageKind(kind))
  }

  /** The decoder as written, running the unpacking loops of the selected kind. */
  method Draw(s: ImageSource) returns (r: Result<seq<Put>, DecodeError>)
    ensures r == PutBinaryImageData(s)
  {
    if s.NativeImage? {
      return Success([Put(0, s.image)]);
    }
    if s.width == 0 {
      return Failure(ZeroWidth);
    }
    var log;
    if s.kind == Grayscale1Bpp {
      log := Grayscale.PutGrayscale(s.data, s.width, s.height);
    } else if s.kind == Rgba32Bpp {
      log := Rgba.PutRgba(s.data, s.width, s.height);
    } else if s.kind == Rgb24Bpp {
      var consumed;
      log, consumed := Rgb.PutRgb(s.data, s.width, s.height);
    } else {
      return Failure(BadImageKind(s.kind));
    }
    r := Success(log);
  }

  /**
    Every row of a packed image is drawn by exactly one call: call row/16, which starts at
    or above it.
  */
  lemma EveryRowDrawnOnce(s: ImageSource, row: nat)
    requires s.Packed? && PutBinaryImageData(s).Success? && row < s.height
    ensures row / FullChunkHeight < |PutBinaryImageData(s).value|
    ensures PutBinaryImageData(s).value[row / FullChunkHeight].dy <= row
            < PutBinaryImageData(s).value[row / FullChunkHeight].dy + FullChunkHeight
    ensures forall i ::
              && 0 <= i < |PutBinaryImageData(s).value|
              && PutBinaryImageData(s).value[i].dy <= row
              && row < PutBinaryImageData(s).value[i].dy + FullChunkHeight
              ==> i == row / FullChunkHeight
  {
    RowInOneChunk(s.height, row);
  }
}

=== FILE: grayscale.dfy ===
/**
  Decoding of 1-bit-per-pixel grayscale images.

  The source is a packed bit stream: each image row starts on a fresh byte and
  occupies `RowBytes(width)` bytes, bits are read most significant first, a 1
  bit becomes a white pixel and a 0 bit an opaque black one.  Each chunk
  buffer of 16 rows is filled from its first slot with the pixels of its rows,
  one row after the other, and every slot after the last written pixel is set
  to the word 0.

  When the source runs short the decoder shortens the row: with `srcDiff`
  bytes left it decodes all `width` pixels only if `srcDiff` exceeds
  `RowBytes(width)`, and otherwise `8 * srcDiff - 7` pixels (none when nothing
  is left).  Because the comparison is strict, an exactly-sized source also
  takes the short path on its last row.
*/
module Grayscale {
  import opened Basics
  import opened Pixels
  import opened Chunking
  import opened Canvas

  /** The colour a source bit decodes to. */
  function Shade(bit: bool): Pixel
  {
    if bit then White else Black
  }

  /** A bit decodes to an opaque gray pixel, full white for 1 and black for 0. */
  lemma ShadeColours(bit: bool)
    ensures Shade(bit).a == 255
    ensures Shade(bit).r == Shade(bit).g == Shade(bit).b
    ensures bit <==> Shade(bit).r == 255
    ensures !bit <==> Shade(bit).r == 0
  {
  }

  /** Source bytes per image row (`fullSrcDiff`): the width divided by 8, rounded up. */
  function RowBytes(width: nat): nat
  {
    (width + 7) / 8
  }

  /** Source bytes fetched to decode `n` pixels starting on a byte boundary. */
  function BytesFor(n: nat): nat
  {
    (n + 7) / 8
  }

  /**
    Pixels decoded in a row when `srcDiff` source bytes remain (`kEnd`, with
    the negative value the code computes for an exhausted source read as 0,
    since both row loops then do nothing).
  */
  function RowWidth(width: nat, srcDiff: nat): (n: nat)
    ensures n <= width
    ensures BytesFor(n) <= srcDiff
    ensures 0 < srcDiff <= RowBytes(width) ==> BytesFor(n) == srcDiff
  {
    if srcDiff > RowBytes(width) then width else if srcDiff == 0 then 0 else 8 * srcDiff - 7
  }

  /** Offset of row `r`'s first source byte: `r` full rows in, or the end of a shorter source. */
  function RowStart(srcLength: nat, width: nat, r: nat): nat
  {
    if r * RowBytes(width) <= srcLength then r * RowBytes(width) else srcLength
  }

  /** Pixels decoded for image row `r`. */
  function RowLength(srcLength: nat, width: nat, r: nat): (n: nat)
    ensures n <= width
  {
    RowWidth(width, srcLength - RowStart(srcLength, width, r))
  }

  /** Bit `i` of the source read as one bit stream, most significant bit of each byte first. */
  function StreamBit(src: seq<byte>, i: nat): bool
    requires i < 8 * |src|
  {
    Bit(src[i / 8], i % 8)
  }

  /**
    A row that decodes any pixel starts `r` full rows into the source and its bytes lie
    inside the source.
  */
  lemma RowInSource(srcLength: nat, width: nat, r: nat)
    requires RowLength(srcLength, width, r) > 0
    ensures RowStart(srcLength, width, r) == r * RowBytes(width)
    ensures r * RowBytes(width) + BytesFor(RowLength(srcLength, width, r)) <= srcLength
  {
  }

  /** The decoded pixels of image row `r`: column `c` is bit `c` of the row's bytes. */
  function ImageRow(src: seq<byte>, width: nat, r: nat): (row: seq<Pixel>)
    ensures |row| == RowLength(|src|, width, r)
  {
    var n := RowLength(|src|, width, r);
    if n == 0 then []
    else
      RowInSource(|src|, width, r);
      seq(n, c requires 0 <= c < n => Shade(StreamBit(src, 8 * (r * RowBytes(width)) + c)))
  }

  /**
    Pixel `c` of row `r` is bit `c` of the stream counted from the row's first byte `r *
    RowBytes(width)`.
  */
  lemma ImageRowPixel(src: seq<byte>, width: nat, r: nat, c: nat)
    requires c < RowLength(|src|, width, r)
    ensures 8 * (r * RowBytes(width)) + c < 8 * |src|
    ensures ImageRow(src, width, r)[c] == Shade(StreamBit(src, 8 * (r * RowBytes(width)) + c))
  {
    RowInSource(|src|, width, r);
  }

  /** The pixels rows `r0` .. `r0 + n - 1` write into the chunk buffer, back to back. */
  function RowsFrom(src: seq<byte>, width: nat, r0: nat, n: nat): (pixels: seq<Pixel>)
  {
    if n == 0 then [] else RowsFrom(src, width, r0, n - 1) + ImageRow(src, width, r0 + n - 1)
  }

  /** `n` rows write at most `n * width` pixels. */
  lemma {:induction false} RowsFromBound(src: seq<byte>, width: nat, r0: nat, n: nat)
    ensures |RowsFrom(src, width, r0, n)| <= n * width
  {
    if n > 0 {
      RowsFromBound(src, width, r0, n - 1);
      var prefix, row := RowsFrom(src, width, r0, n - 1), ImageRow(src, width, r0 + n - 1);
      assert |RowsFrom(src, width, r0, n)| == |prefix| + |row|;
      assert (n - 1) * width + width == n * width;
    }
  }

  /** Pixels written into chunk `i` before the zero-fill (the final `destPos`). */
  function Written(src: seq<byte>, width: nat, height: nat, i: nat): seq<Pixel>
    requires i < TotalChunks(height)
  {
    RowsFrom(src, width, ChunkRow(i), ChunkHeight(height, i))
  }

  /**
    The chunk buffer handed to the canvas for chunk `i`: the decoded pixels, then
    zero-filled to 16 rows.
  */
  function ChunkPixels(src: seq<byte>, width: nat, height: nat, i: nat): (pixels: seq<Pixel>)
    requires i < TotalChunks(height)
    ensures |pixels| == FullChunkHeight * width
  {
    var written := Written(src, width, height, i);
    ChunkBounds(height, i);
    RowsFromBound(src, width, ChunkRow(i), ChunkHeight(height, i));
    MulLe(ChunkHeight(height, i), FullChunkHeight, width);
    written + seq(FullChunkHeight * width - |written|, _ => Cleared)
  }

  /**
    The log of canvas calls for a grayscale image: one 16-row buffer per chunk, drawn at
    the chunk's first row.
  */
  function GrayscalePuts(src: seq<byte>, width: nat, height: nat): (puts: seq<Put>)
    ensures |puts| == TotalChunks(height)
    ensures forall i :: 0 <= i < |puts| ==>
              puts[i].dy == ChunkRow(i) && puts[i].image.width == width
  {
    seq(TotalChunks(height), i requires 0 <= i < TotalChunks(height) =>
      Put(ChunkRow(i), ImageData(width, FullChunkHeight,
          Flatten(ChunkPixels(src, width, height, i)))))
  }

  /** Every grayscale call draws the whole 16-row buffer, also for a last partial chunk. */
  lemma GrayscaleFullBuffers(src: seq<byte>, width: nat, height: nat, i: nat)
    requires i < TotalChunks(height)
    ensures GrayscalePuts(src, width, height)[i].image.height == FullChunkHeight
    ensures |GrayscalePuts(src, width, height)[i].image.data| == 4 * (FullChunkHeight * width)
  {
  }

  // ---------------------------------------------------------------------------
  // The row loops as written: an unrolled loop over whole bytes, then a
  // bit-at-a-time loop driven by a shifting mask.
  // ---------------------------------------------------------------------------

  lemma StreamBitOfByte(src: seq<byte>, pos: nat, t: nat)
    requires pos < |src| && t < 8
    ensures 8 * pos + t < 8 * |src|
    ensures StreamBit(src, 8 * pos + t) == Bit(src[pos], t)
  {
    assert (8 * pos + t) / 8 == pos && (8 * pos + t) % 8 == t;
  }

  /**
    Pixels decoded from bit `8 * pos` of the source onwards: the reference the row loops
    are checked against.
  */
  ghost predicate DecodesFrom(src: seq<byte>, pos: nat, pixels: seq<Pixel>)
  {
    && (|pixels| > 0 ==> 8 * pos + |pixels| <= 8 * |src|)
    && forall c :: 0 <= c < |pixels| ==> pixels[c] == Shade(StreamBit(src, 8 * pos + c))
  }

  /**
    The eight pixels of one whole source byte, matched against the literal masks 128 .. 1
    in turn.
  */
  function EightPixels(srcByte: byte): seq<Pixel>
  {
    [Shade(Masked(srcByte, 128)), Shade(Masked(srcByte, 64)),
     Shade(Masked(srcByte, 32)), Shade(Masked(srcByte, 16)),
     Shade(Masked(srcByte, 8)), Shade(Masked(srcByte, 4)),
     Shade(Masked(srcByte, 2)), Shade(Masked(srcByte, 1))]
  }

  /** The unrolled eight pixels of byte `p` are the eight bits of the stream at byte `p`. */
  lemma EightPixelsDecode(src: seq<byte>, p: nat)
    requires p < |src|
    ensures DecodesFrom(src, p, EightPixels(src[p]))
  {
    var pixels := EightPixels(src[p]);
    LiteralMasks(src[p]);
    forall t | 0 <= t < 8
      ensures 8 * p + t < 8 * |src| && pixels[t] == Shade(StreamBit(src, 8 * p + t))
    {
      StreamBitOfByte(src, p, t);
    }
  }

  /**
    Decoded runs compose: a run of `bytes` whole bytes followed by a run decoded from the
    next byte.
  */
  lemma DecodesFromConcat(src: seq<byte>, pos: nat, bytes: nat, xs: seq<Pixel>, ys: seq<Pixel>)
    requires |xs| == 8 * bytes
    requires DecodesFrom(src, pos, xs) && DecodesFrom(src, pos + bytes, ys)
    ensures DecodesFrom(src, pos, xs + ys)
  {
    forall c | 0 <= c < |xs + ys|
      ensures (xs + ys)[c] == Shade(StreamBit(src, 8 * pos + c))
    {
      if c < |xs| {
        assert (xs + ys)[c] == xs[c];
      } else {
        var c' := c - |xs|;
        assert (xs + ys)[c] == ys[c'];
        assert 8 * (pos + bytes) + c' == 8 * pos + c;
      }
    }
  }

  /** One more pixel within the byte at `pos`. */
  lemma DecodesFromSnoc(src: seq<byte>, pos: nat, xs: seq<Pixel>)
    requires |xs| < 8 && pos < |src| && DecodesFrom(src, pos, xs)
    ensures DecodesFrom(src, pos, xs + [Shade(Bit(src[pos], |xs|))])
  {
    StreamBitOfByte(src, pos, |xs|);
  }

  /** The unrolled loop: `count` pixels (a multiple of 8), one whole source byte per 8 pixels. */
  method DecodeWholeBytes(src: seq<byte>, srcPos: nat, count: nat)
    returns (pixels: seq<Pixel>, next: nat)
    requires count % 8 == 0 && srcPos + count / 8 <= |src|
    ensures |pixels| == count && DecodesFrom(src, srcPos, pixels)
    ensures next == srcPos + count / 8
  {
    var k := 0;
    next := srcPos;
    pixels := [];
    while k < count
      invariant k <= count && k % 8 == 0
      invariant |pixels| == k && next == srcPos + k / 8
      invariant DecodesFrom(src, srcPos, pixels)
    {
      var srcByte := src[next];
      EightPixelsDecode(src, next);
      DecodesFromConcat(src, srcPos, next - srcPos, pixels, EightPixels(srcByte));
      next := next + 1;
      pixels := pixels + EightPixels(srcByte);
      k := k + 8;
    }
  }

  /**
    The bit-at-a-time loop for the last `count` (< 8) pixels of a row: it fetches a byte
    when the mask is 0 and shifts the mask right after every pixel.
  */
  method DecodeTailBits(src: seq<byte>, srcPos: nat, count: nat)
    returns (pixels: seq<Pixel>, next: nat)
    requires count < 8 && (count > 0 ==> srcPos < |src|)
    ensures |pixels| == count && DecodesFrom(src, srcPos, pixels)
    ensures next == srcPos + BytesFor(count)
  {
    var k := 0;
    var mask: nat := 0;
    var srcByte: byte := 0;
    next := srcPos;
    pixels := [];
    while k < count
      invariant k <= count && |pixels| == k
      invariant k == 0 ==> mask == 0 && next == srcPos
      invariant k > 0 ==> mask == Pow2(7 - k) && next == srcPos + 1 && srcByte == src[srcPos]
      invariant DecodesFrom(src, srcPos, pixels)
    {
      if mask == 0 {
        srcByte := src[next];
        next := next + 1;
        mask := 128;
        TopMask();
      }
      MaskSelectsBit(srcByte, k);
      DecodesFromSnoc(src, srcPos, pixels);
      pixels := pixels + [Shade(Masked(srcByte, mask))];
      mask := mask / 2;
      k := k + 1;
    }
  }

  /**
    Source bytes left and the pixel count `kEnd` the row loops run to, as the code
    computes it (negative when the source is exhausted).
  */
  function RowEnd(width: nat, srcDiff: int): (kEnd: int)
    ensures srcDiff >= 0 ==> (if kEnd < 0 then 0 else kEnd) == RowWidth(width, srcDiff)
  {
    if srcDiff > RowBytes(width) then width else srcDiff * 8 - 7
  }

  /**
    How a row of `n = RowWidth(width, srcDiff)` pixels splits into whole bytes and a tail
    of fewer than 8 bits, both inside the `srcDiff` bytes left.
  */
  lemma RowSplit(width: nat, srcDiff: nat)
    requires RowWidth(width, srcDiff) > 0
    ensures var n := RowWidth(width, srcDiff);
      var whole := n - n % 8;
      whole % 8 == 0 && whole / 8 < srcDiff && n - whole < 8 &&
      whole / 8 + BytesFor(n - whole) == BytesFor(n)
  {
    var n := RowWidth(width, srcDiff);
    if srcDiff <= RowBytes(width) {
      assert n == 8 * (srcDiff - 1) + 1;
    }
  }

  /**
    Decodes one row starting at source offset `srcPos`.  Whatever mix of the
    two loops runs, pixel `c` of the row is bit `c` of the bit stream that
    starts at `srcPos`, exactly `RowWidth` pixels are produced, and only whole
    bytes inside the source are fetched.
  */
  method DecodeRow(src: seq<byte>, srcPos: nat, width: nat) returns (row: seq<Pixel>, next: nat)
    requires srcPos <= |src|
    ensures |row| == RowWidth(width, |src| - srcPos)
    ensures DecodesFrom(src, srcPos, row)
    ensures next == srcPos + BytesFor(|row|) <= |src|
  {
    var srcDiff: int := |src| - srcPos;
    var kEnd := RowEnd(width, srcDiff);
    var kEndUnrolled: int := kEnd - kEnd % 8;  // kEnd & ~7
    if kEnd <= 0 {
      // kEnd is 0 or -7 and kEndUnrolled 0 or -8: neither loop runs.
      row, next := [], srcPos;
    } else {
      RowSplit(width, srcDiff);
      var head, mid := DecodeWholeBytes(src, srcPos, kEndUnrolled);
      var tail;
      tail, next := DecodeTailBits(src, mid, kEnd - kEndUnrolled);
      DecodesFromConcat(src, srcPos, mid - srcPos, head, tail);
      row := head + tail;
    }
  }

  /** Where the next row starts: a row advances the source by exactly the bytes it decoded from. */
  lemma NextRowStart(srcLength: nat, width: nat, r: nat)
    ensures RowStart(srcLength, width, r + 1)
            == RowStart(srcLength, width, r) + BytesFor(RowLength(srcLength, width, r))
  {
    assert (r + 1) * RowBytes(width) == r * RowBytes(width) + RowBytes(width);
  }

  /**
    One pass of the row loop: decoding from row `r`'s start yields exactly image row `r`
    and leaves the source at row `r + 1`'s start.
  */
  method DecodeImageRow(src: seq<byte>, width: nat, r: nat, srcPos: nat)
    returns (row: seq<Pixel>, next: nat)
    requires srcPos == RowStart(|src|, width, r)
    ensures row == ImageRow(src, width, r)
    ensures next == RowStart(|src|, width, r + 1)
  {
    row, next := DecodeRow(src, srcPos, width);
    if |row| > 0 {
      RowInSource(|src|, width, r);
      var expected := ImageRow(src, width, r);
      forall c | 0 <= c < |row|
        ensures row[c] == expected[c]
      {
        ImageRowPixel(src, width, r, c);
      }
    }
    NextRowStart(|src|, width, r);
  }

  /** The zero-fill loop: pads the written pixels with the zero word up to `length` slots. */
  method ZeroFill(written: seq<Pixel>, length: nat) returns (dest: seq<Pixel>)
    requires |written| <= length
    ensures |dest| == length
    ensures dest[..|written|] == written
    ensures forall p :: |written| <= p < length ==> dest[p] == Cleared
  {
    dest := written;
    while |dest| < length
      invariant |written| <= |dest| <= length
      invariant dest == written + seq(|dest| - |written|, _ => Cleared)
    {
      dest := dest + [Cleared];
    }
  }

  /**
    The row loop of one chunk: decodes rows `r0` .. `r0 + n - 1` back to back from row
    `r0`'s start.
  */
  method DecodeRows(src: seq<byte>, width: nat, r0: nat, n: nat, srcPos: nat)
    returns (written: seq<Pixel>, next: nat)
    requires srcPos == RowStart(|src|, width, r0)
    ensures written == RowsFrom(src, width, r0, n)
    ensures next == RowStart(|src|, width, r0 + n)
  {
    next := srcPos;
    written := [];
    var j := 0;
    while j < n
      invariant j <= n
      invariant next == RowStart(|src|, width, r0 + j)
      invariant written == RowsFrom(src, width, r0, j)
    {
      var row;
      row, next := DecodeImageRow(src, width, r0 + j, next);
      written := written + row;
      j := j + 1;
    }
  }

  /**
    One iteration of the chunk loop as written: decode the chunk's rows into
    the buffer from slot 0, then zero-fill the rest of the 16-row buffer.
  */
  method FillChunk(src: seq<byte>, width: nat, height: nat, i: nat, srcPos: nat)
    returns (dest: seq<Pixel>, next: nat)
    requires i < TotalChunks(height)
    requires srcPos == RowStart(|src|, width, ChunkRow(i))
    ensures dest == ChunkPixels(src, width, height, i)
    ensures next == RowStart(|src|, width, ChunkRow(i) + ChunkHeight(height, i))
  {
    var thisChunkHeight := if i < FullChunks(height)
        then FullChunkHeight else PartialChunkHeight(height);
    var dest32DataLength := width * FullChunkHeight;
    var written;
    written, next := DecodeRows(src, width, i * FullChunkHeight, thisChunkHeight, srcPos);
    RowsFromBound(src, width, ChunkRow(i), thisChunkHeight);
    ChunkBounds(height, i);
    MulLe(thisChunkHeight, FullChunkHeight, width);
    dest := ZeroFill(written, dest32DataLength);
    assert dest == written + seq(dest32DataLength - |written|, _ => Cleared);
  }

  /**
    The whole grayscale branch as written: one buffer per chunk, handed to the
    canvas at the chunk's first row.  It produces exactly the log
    `GrayscalePuts` describes.
  */
  method PutGrayscale(src: seq<byte>, width: nat, height: nat) returns (log: seq<Put>)
    ensures log == GrayscalePuts(src, width, height)
  {
    var partialChunkHeight := height % FullChunkHeight;
    var fullChunks := (height - partialChunkHeight) / FullChunkHeight;
    var totalChunks := if partialChunkHeight == 0 then fullChunks else fullChunks + 1;
    ghost var puts := GrayscalePuts(src, width, height);
    var srcPos: nat := 0;
    var i := 0;
    log := [];
    while i < totalChunks
      invariant i <= totalChunks == TotalChunks(height) == |puts|
      invariant i < totalChunks ==> srcPos == RowStart(|src|, width, ChunkRow(i))
      invariant log == puts[..i]
    {
      var dest;
      dest, srcPos := FillChunk(src, width, height, i, srcPos);
      if i + 1 < totalChunks {
        NextChunkRow(height, i);
      }
      var put := Put(i * FullChunkHeight, ImageData(width, FullChunkHeight, Flatten(dest)));
      assert put == puts[i];
      PrefixSnoc(puts, i);
      log := log + [put];
      i := i + 1;
    }
    assert puts[..i] == puts;
  }

  // ---------------------------------------------------------------------------
  // Properties of the decoded chunks
  // ---------------------------------------------------------------------------

  /** Every decoded row pixel is white or black. */
  lemma {:induction false} RowsFromShades(src: seq<byte>, width: nat, r0: nat, n: nat)
    ensures forall p :: 0 <= p < |RowsFrom(src, width, r0, n)| ==>
      RowsFrom(src, width, r0, n)[p] == White || RowsFrom(src, width, r0, n)[p] == Black
  {
    if n > 0 {
      RowsFromShades(src, width, r0, n - 1);
      var row := ImageRow(src, width, r0 + n - 1);
      forall p | 0 <= p < |row|
        ensures row[p] == White || row[p] == Black
      {
        ImageRowPixel(src, width, r0 + n - 1, p);
      }
    }
  }

  /**
    Slot `p` of a chunk buffer holds the `p`-th written pixel, or the zero word past the
    written part.
  */
  lemma ChunkSlot(src: seq<byte>, width: nat, height: nat, i: nat, p: nat)
    requires i < TotalChunks(height) && p < FullChunkHeight * width
    ensures 4 * p + 4 <= |GrayscalePuts(src, width, height)[i].image.data|
    ensures p < |Written(src, width, height, i)| ==>
      PixelAt(GrayscalePuts(src, width, height)[i].image.data, p)
          == Written(src, width, height, i)[p]
    ensures p >= |Written(src, width, height, i)| ==>
      PixelAt(GrayscalePuts(src, width, height)[i].image.data, p) == Cleared
  {
    var pixels := ChunkPixels(src, width, height, i);
    assert GrayscalePuts(src, width, height)[i].image.data == Flatten(pixels);
    PixelAtFlatten(pixels, p);
  }

  /**
    Only three pixel values reach the canvas: each slot of a chunk buffer up
    to the last written pixel is exactly white or exactly black, and every
    slot after it is the zero word; the written part never exceeds the rows
    of the chunk.
  */
  lemma GrayscalePixelValues(src: seq<byte>, width: nat, height: nat, i: nat, p: nat)
    requires i < TotalChunks(height) && p < FullChunkHeight * width
    ensures |Written(src, width, height, i)| <= ChunkHeight(height, i) * width
    ensures 4 * p + 4 <= |GrayscalePuts(src, width, height)[i].image.data|
    ensures p < |Written(src, width, height, i)| ==>
      PixelAt(GrayscalePuts(src, width, height)[i].image.data, p) in {White, Black}
    ensures p >= |Written(src, width, height, i)| ==>
      PixelAt(GrayscalePuts(src, width, height)[i].image.data, p) == Cleared
  {
    ChunkSlot(src, width, height, i, p);
    RowsFromBound(src, width, ChunkRow(i), ChunkHeight(height, i));
    RowsFromShades(src, width, ChunkRow(i), ChunkHeight(height, i));
  }

  /** A row that decodes any pixel comes after rows that each decoded the full width. */
  lemma EarlierRowsFull(srcLength: nat, width: nat, r: nat, r': nat)
    requires r' < r && RowLength(srcLength, width, r) > 0
    ensures RowLength(srcLength, width, r') == width
  {
    MulLe(r' + 1, r, RowBytes(width));
    assert (r' + 1) * RowBytes(width) == r' * RowBytes(width) + RowBytes(width);
  }

  /** Every row after a short row decodes nothing: the short row used up the source. */
  lemma LaterRowsEmpty(srcLength: nat, width: nat, r: nat, r': nat)
    requires r < r' && RowLength(srcLength, width, r) < width
    ensures RowLength(srcLength, width, r') == 0
  {
    if RowLength(srcLength, width, r') > 0 {
      EarlierRowsFull(srcLength, width, r', r);
    }
  }

  /** Once row `r0 + j` is short, the rows after it add no pixels to the run. */
  lemma {:induction false} RowsFromAfterShort(src: seq<byte>, width: nat, r0: nat, j: nat, n: nat)
    requires j < n && RowLength(|src|, width, r0 + j) < width
    ensures |RowsFrom(src, width, r0, n)| == |RowsFrom(src, width, r0, j + 1)|
  {
    if n > j + 1 {
      RowsFromAfterShort(src, width, r0, j, n - 1);
      LaterRowsEmpty(|src|, width, r0 + j, r0 + n - 1);
      RowsFromNext(src, width, r0, n - 1);
    }
  }

  /**
    Where a short grayscale source leaves the canvas transparent: in chunk `i`, every
    column of row `j` at or past the pixels that row decoded is the zero word, because
    the row wrote nothing there and no later row of the chunk wrote anything at all.
  */
  lemma GrayscalePixelPastRow(src: seq<byte>, width: nat, height: nat, i: nat, j: nat, c: nat)
    requires i < TotalChunks(height) && j < ChunkHeight(height, i)
    requires RowLength(|src|, width, ChunkRow(i) + j) <= c < width
    ensures 4 * Slot(width, j, c) + 4 <= |GrayscalePuts(src, width, height)[i].image.data|
    ensures PixelAt(GrayscalePuts(src, width, height)[i].image.data, Slot(width, j, c)) == Cleared
  {
    var r0, n := ChunkRow(i), ChunkHeight(height, i);
    RowsFromAfterShort(src, width, r0, j, n);
    RowsFromNext(src, width, r0, j);
    RowsFromBound(src, width, r0, j);
    assert |Written(src, width, height, i)| <= Slot(width, j, c);
    ChunkBounds(height, i);
    MulLe(j + 1, FullChunkHeight, width);
    assert Slot(width, j, c) < (j + 1) * width;
    ChunkSlot(src, width, height, i, Slot(width, j, c));
  }

  /** When row `r0 + n` decodes anything, the `n` rows before it from `r0` on are all full. */
  lemma {:induction false} RowsFromFull(src: seq<byte>, width: nat, r0: nat, n: nat)
    requires RowLength(|src|, width, r0 + n) > 0
    ensures |RowsFrom(src, width, r0, n)| == n * width
  {
    if n > 0 {
      EarlierRowsFull(|src|, width, r0 + n, r0 + n - 1);
      RowsFromFull(src, width, r0, n - 1);
      RowsFromNext(src, width, r0, n - 1);
      assert (n - 1) * width + width == n * width;
    }
  }

  /**
    Later rows only append: a slot written by the first `m` rows keeps its pixel after `n
    >= m` rows.
  */
  lemma {:induction false} RowsFromStable(src: seq<byte>, width: nat, r0: nat, m: nat, n: nat,
      p: nat)
    requires m <= n && p < |RowsFrom(src, width, r0, m)|
    ensures p < |RowsFrom(src, width, r0, n)|
    ensures RowsFrom(src, width, r0, n)[p] == RowsFrom(src, width, r0, m)[p]
  {
    if m < n {
      RowsFromStable(src, width, r0, m, n - 1, p);
      var prefix := RowsFrom(src, width, r0, n - 1);
      assert RowsFrom(src, width, r0, n) == prefix + ImageRow(src, width, r0 + n - 1);
      assert (prefix + ImageRow(src, width, r0 + n - 1))[p] == prefix[p];
    }
  }

  /**
    Within a run of rows, pixel `c` of row `j` sits at offset `j * width + c`: every row
    before it decoded the full width.
  */
  lemma RowsFromSlot(src: seq<byte>, width: nat, r0: nat, j: nat, n: nat, c: nat)
    requires j < n && c < RowLength(|src|, width, r0 + j)
    ensures Slot(width, j, c) < |RowsFrom(src, width, r0, n)|
    ensures RowsFrom(src, width, r0, n)[Slot(width, j, c)] == ImageRow(src, width, r0 + j)[c]
  {
    RowsFromFull(src, width, r0, j);
    RowAfterFullRows(src, width, r0, j, c);
    RowsFromStable(src, width, r0, j + 1, n, Slot(width, j, c));
  }

  /** Decoding one more row appends that row. */
  lemma RowsFromNext(src: seq<byte>, width: nat, r0: nat, j: nat)
    ensures RowsFrom(src, width, r0, j + 1)
            == RowsFrom(src, width, r0, j) + ImageRow(src, width, r0 + j)
  {
  }

  /** Once the first `j` rows fill `j * width` slots, row `j` follows them directly. */
  lemma RowAfterFullRows(src: seq<byte>, width: nat, r0: nat, j: nat, c: nat)
    requires c < |ImageRow(src, width, r0 + j)|
    requires |RowsFrom(src, width, r0, j)| == j * width
    ensures Slot(width, j, c) < |RowsFrom(src, width, r0, j + 1)|
    ensures RowsFrom(src, width, r0, j + 1)[Slot(width, j, c)] == ImageRow(src, width, r0 + j)[c]
  {
    var before := RowsFrom(src, width, r0, j);
    var row := ImageRow(src, width, r0 + j);
    RowsFromNext(src, width, r0, j);
    assert (before + row)[|before| + c] == row[c];
  }

  /**
    Pixel `c` of row `j` of chunk `i` is written to slot `j * width + c`, because every
    earlier row of the chunk decoded the full width.
  */
  lemma WrittenSlot(src: seq<byte>, width: nat, height: nat, i: nat, j: nat, c: nat)
    requires i < TotalChunks(height) && j < ChunkHeight(height, i)
    requires c < RowLength(|src|, width, ChunkRow(i) + j)
    ensures Slot(width, j, c) < |Written(src, width, height, i)|
    ensures Written(src, width, height, i)[Slot(width, j, c)]
            == ImageRow(src, width, ChunkRow(i) + j)[c]
  {
    RowsFromSlot(src, width, ChunkRow(i), j, ChunkHeight(height, i), c);
  }

  /**
    The canvas receives pixel `c` of row `j` of chunk `i` at slot `j * width + c` of that
    chunk's buffer.
  */
  lemma ChunkSlotOfRow(src: seq<byte>, width: nat, height: nat, i: nat, j: nat, c: nat)
    requires i < TotalChunks(height) && j < ChunkHeight(height, i)
    requires c < RowLength(|src|, width, ChunkRow(i) + j)
    ensures 4 * Slot(width, j, c) + 4 <= |GrayscalePuts(src, width, height)[i].image.data|
    ensures PixelAt(GrayscalePuts(src, width, height)[i].image.data, Slot(width, j, c))
            == ImageRow(src, width, ChunkRow(i) + j)[c]
  {
    WrittenSlot(src, width, height, i, j, c);
    var written := Written(src, width, height, i);
    RowsFromBound(src, width, ChunkRow(i), ChunkHeight(height, i));
    ChunkBounds(height, i);
    MulLe(ChunkHeight(height, i), FullChunkHeight, width);
    assert Slot(width, j, c) < |written| <= FullChunkHeight * width;
    ChunkSlot(src, width, height, i, Slot(width, j, c));
  }

  /**
    Pixel `c` of row `r` is bit `c % 8`, most significant first, of byte `c / 8` of the
    row's bytes.
  */
  lemma RowPixelIsSourceBit(src: seq<byte>, width: nat, r: nat, c: nat)
    requires c < RowLength(|src|, width, r)
    ensures r * RowBytes(width) + c / 8 < |src|
    ensures ImageRow(src, width, r)[c] == Shade(Bit(src[r * RowBytes(width) + c / 8], c % 8))
  {
    var start := r * RowBytes(width);
    ImageRowPixel(src, width, r, c);
    var b := start + c / 8;
    assert 8 * b + c % 8 == 8 * start + c;
    StreamBitOfByte(src, b, c % 8);
  }

  /**
    The per-bit specification: image row `r = ChunkRow(i) + j`, drawn by
    chunk `i`, starts on a fresh source byte `r * RowBytes(width)`, and every
    pixel `c` it decodes is white when bit `c % 8` (most significant first)
    of byte `c / 8` of that row is 1 and black when it is 0.  It lands at
    slot `j * width + c` of the chunk's buffer.  (Every row has such an `i`
    and `j`: `RowInOneChunk`.)
  */
  lemma GrayscalePixelIsSourceBit(src: seq<byte>, width: nat, height: nat, i: nat, j: nat, c: nat)
    requires i < TotalChunks(height) && j < ChunkHeight(height, i)
    requires c < RowLength(|src|, width, ChunkRow(i) + j)
    ensures (ChunkRow(i) + j) * RowBytes(width) + c / 8 < |src|
    ensures 4 * Slot(width, j, c) + 4 <= |GrayscalePuts(src, width, height)[i].image.data|
    ensures PixelAt(GrayscalePuts(src, width, height)[i].image.data, Slot(width, j, c))
            == Shade(Bit(src[(ChunkRow(i) + j) * RowBytes(width) + c / 8], c % 8))
  {
    ChunkSlotOfRow(src, width, height, i, j, c);
    RowPixelIsSourceBit(src, width, ChunkRow(i) + j, c);
  }

  /**
    Row alignment and consumption: a row whose bytes are all available with
    at least one byte to spare decodes the whole width and advances the
    source by exactly `RowBytes(width)`; a row with fewer bytes left decodes
    `8 * srcDiff - 7` pixels (never more than the width) and uses up the
    source; an exhausted source decodes nothing.
  */
  lemma GrayscaleRowConsumption(srcLength: nat, width: nat, r: nat)
    ensures RowStart(srcLength, width, r + 1)
            == RowStart(srcLength, width, r) + BytesFor(RowLength(srcLength, width, r))
    ensures srcLength > (r + 1) * RowBytes(width) ==>
      RowLength(srcLength, width, r) == width &&
      RowStart(srcLength, width, r + 1) == RowStart(srcLength, width, r) + RowBytes(width)
    ensures r * RowBytes(width) < srcLength <= (r + 1) * RowBytes(width) ==>
      RowLength(srcLength, width, r) == 8 * (srcLength - r * RowBytes(width)) - 7 &&
      RowStart(srcLength, width, r + 1) == srcLength
    ensures srcLength <= r * RowBytes(width) ==> RowLength(srcLength, width, r) == 0
  {
    NextRowStart(srcLength, width, r);
    assert (r + 1) * RowBytes(width) == r * RowBytes(width) + RowBytes(width);
  }

  /**
    An exactly-sized source (`height * RowBytes(width)` bytes) still takes the
    short path on its last row, which decodes `8 * RowBytes(width) - 7`
    pixels: fewer than the width unless `width % 8 == 1`.
  */
  lemma ExactSourceShortensLastRow(width: nat, height: nat, srcLength: nat)
    requires width > 0 && height > 0 && srcLength == height * RowBytes(width)
    ensures RowLength(srcLength, width, height - 1) == 8 * RowBytes(width) - 7
    ensures RowLength(srcLength, width, height - 1) == width <==> width % 8 == 1
  {
    assert height * RowBytes(width) == (height - 1) * RowBytes(width) + RowBytes(width);
  }
}

=== FILE: pixels.dfy ===
/**
  Bytes, RGBA pixels and single bits.

  A canvas `ImageData` buffer is a `Uint8ClampedArray` holding four bytes per
  pixel in the order red, green, blue, alpha.  The model writes those four
  bytes directly instead of storing a native-endian 32-bit word, so the black
  pixel is the byte quadruple (0, 0, 0, 255) on every platform.
*/
module Pixels {
  import opened Basics

  /** An unsigned 8-bit value. */
  type byte = x: int | 0 <= x < 256

  /** One RGBA pixel as it sits in an `ImageData` buffer. */
  datatype Pixel = Pixel(r: byte, g: byte, b: byte, a: byte)

  /** The grayscale decoder's colour for a 1 bit (the all-ones word). */
  const White := Pixel(255, 255, 255, 255)

  /** The grayscale decoder's colour for a 0 bit: opaque black. */
  const Black := Pixel(0, 0, 0, 255)

  /** A pixel slot holding the 32-bit word 0, written by the zero-fill. */
  const Cleared := Pixel(0, 0, 0, 0)

  /** Byte `c` (0 = red, ..., 3 = alpha) of a pixel. */
  function Channel(p: Pixel, c: nat): byte
    requires c < 4
  {
    if c == 0 then p.r else if c == 1 then p.g else if c == 2 then p.b else p.a
  }

  /** The four bytes of one pixel, in buffer order. */
  function Bytes(p: Pixel): (quad: seq<byte>)
    ensures |quad| == 4
  {
    [p.r, p.g, p.b, p.a]
  }

  /** The bytes of a run of pixels, four per pixel, in buffer order. */
  function Flatten(ps: seq<Pixel>): (bytes: seq<byte>)
    ensures |bytes| == 4 * |ps|
  {
    if |ps| == 0 then [] else Flatten(ps[..|ps| - 1]) + Bytes(ps[|ps| - 1])
  }

  /** Byte `c` of pixel `p` sits at offset 4p+c of the flattened buffer. */
  lemma {:induction false} FlattenIndex(ps: seq<Pixel>, p: nat, c: nat)
    requires p < |ps| && c < 4
    ensures 4 * p + c < |Flatten(ps)|
    ensures Flatten(ps)[4 * p + c] == Channel(ps[p], c)
  {
    var init := ps[..|ps| - 1];
    if p < |ps| - 1 {
      FlattenIndex(init, p, c);
      assert init[p] == ps[p];
    }
  }

  /** The four bytes of pixel `p` of a byte buffer. */
  function PixelAt(bytes: seq<byte>, p: nat): Pixel
    requires 4 * p + 4 <= |bytes|
  {
    Pixel(bytes[4 * p], bytes[4 * p + 1], bytes[4 * p + 2], bytes[4 * p + 3])
  }

  /** Reading pixel `p` back out of flattened pixels gives the pixel that was flattened. */
  lemma PixelAtFlatten(ps: seq<Pixel>, p: nat)
    requires p < |ps|
    ensures 4 * p + 4 <= |Flatten(ps)|
    ensures PixelAt(Flatten(ps), p) == ps[p]
  {
    FlattenIndex(ps, p, 0);
    FlattenIndex(ps, p, 1);
    FlattenIndex(ps, p, 2);
    FlattenIndex(ps, p, 3);
  }

  /** Flattening distributes over concatenation. */
  lemma {:induction false} FlattenAppend(xs: seq<Pixel>, ys: seq<Pixel>)
    ensures Flatten(xs + ys) == Flatten(xs) + Flatten(ys)
    decreases |ys|
  {
    if |ys| == 0 {
      assert xs + ys == xs;
    } else {
      var init := ys[..|ys| - 1];
      assert (xs + ys)[..|xs + ys| - 1] == xs + init;
      FlattenAppend(xs, init);
    }
  }

  /** Appending one pixel appends its four bytes. */
  lemma FlattenSnoc(ps: seq<Pixel>, p: Pixel)
    ensures Flatten(ps + [p]) == Flatten(ps) + [p.r, p.g, p.b, p.a]
  {
    assert (ps + [p])[..|ps|] == ps;
  }

  /** Pixel `p` of the slice that starts at pixel `q` is pixel `q + p` of the whole buffer. */
  lemma PixelAtSlice(bytes: seq<byte>, q: nat, n: nat, p: nat)
    requires 4 * (q + n) <= |bytes| && p < n
    ensures 4 * p + 4 <= |bytes[4 * q .. 4 * (q + n)]|
    ensures 4 * (q + p) + 4 <= |bytes|
    ensures PixelAt(bytes[4 * q .. 4 * (q + n)], p) == PixelAt(bytes, q + p)
  {
  }

  /** Flattening a run split at pixel `k` gives the two halves' bytes back to back. */
  lemma FlattenSplit(ps: seq<Pixel>, k: nat)
    requires k <= |ps|
    ensures Flatten(ps) == Flatten(ps[..k]) + Flatten(ps[k..])
  {
    assert ps == ps[..k] + ps[k..];
    FlattenAppend(ps[..k], ps[k..]);
  }

  /** Flattening a slice of pixels gives the corresponding slice of bytes. */
  lemma FlattenSlice(ps: seq<Pixel>, lo: nat, hi: nat)
    requires lo <= hi <= |ps|
    ensures Flatten(ps[lo..hi]) == Flatten(ps)[4 * lo .. 4 * hi]
  {
    var front := ps[..hi];
    FlattenSplit(ps, hi);
    FlattenSplit(front, lo);
    assert front[..lo] == ps[..lo];
    assert front[lo..] == ps[lo..hi];
    MiddleSlice(Flatten(ps[..lo]), Flatten(ps[lo..hi]), Flatten(ps[hi..]));
  }

  /** 2 to the power `n`. */
  function Pow2(n: nat): (p: nat)
    ensures p >= 1
  {
    if n == 0 then 1 else 2 * Pow2(n - 1)
  }

  /** The `n` low-order bits of `x` in binary, most significant bit first. */
  function BitsMsbFirst(x: nat, n: nat): (bits: seq<bool>)
    ensures |bits| == n
  {
    if n == 0 then [] else BitsMsbFirst(x / 2, n - 1) + [x % 2 == 1]
  }

  /** The value of a big-endian bit string. */
  function BitsValue(bits: seq<bool>): nat
  {
    if |bits| == 0 then 0
        else 2 * BitsValue(bits[..|bits| - 1]) + (if bits[|bits| - 1] then 1 else 0)
  }

  /** Bit `t` of a byte, counting from the most significant bit (t = 0) down. */
  function Bit(b: byte, t: nat): bool
    requires t < 8
  {
    BitsMsbFirst(b, 8)[t]
  }

  /** `b & mask` is non-zero, for a mask holding a single set bit. */
  function Masked(b: byte, mask: nat): bool
    requires mask > 0
  {
    (b / mask) % 2 == 1
  }

  /** The binary expansion of a byte is exact: reading its eight bits back gives the byte. */
  lemma {:induction false} BitsRoundTrip(x: nat, n: nat)
    requires x < Pow2(n)
    ensures BitsValue(BitsMsbFirst(x, n)) == x
  {
    if n > 0 {
      var bits := BitsMsbFirst(x, n);
      assert bits[..n - 1] == BitsMsbFirst(x / 2, n - 1);
      BitsRoundTrip(x / 2, n - 1);
    }
  }

  /** Bit `s` counted from the least significant end is selected by dividing by 2^s. */
  lemma {:induction false} BitsIndex(x: nat, n: nat, s: nat)
    requires s < n
    ensures BitsMsbFirst(x, n)[n - 1 - s] == ((x / Pow2(s)) % 2 == 1)
  {
    if s > 0 {
      BitsIndex(x / 2, n - 1, s - 1);
      DivDiv(x, 2, Pow2(s - 1));
    }
  }

  /**
    The single-bit mask 2^(7-t), as the decoder's `srcByte & mask` uses it, selects bit
    `t` counted from the top.
  */
  lemma MaskSelectsBit(b: byte, t: nat)
    requires t < 8
    ensures Masked(b, Pow2(7 - t)) == Bit(b, t)
  {
    BitsIndex(b, 8, 7 - t);
  }

  /** The first mask of the bit-at-a-time loop, 128, selects the top bit. */
  lemma TopMask()
    ensures Pow2(7) == 128
  {
    assert Pow2(1) == 2;
    assert Pow2(2) == 4;
    assert Pow2(3) == 8;
    assert Pow2(4) == 16;
    assert Pow2(5) == 32;
    assert Pow2(6) == 64;
  }

  /** The eight literal masks 128, 64, ..., 1 select bits 0 to 7 in that order. */
  lemma LiteralMasks(b: byte)
    ensures Masked(b, 128) == Bit(b, 0) && Masked(b, 64) == Bit(b, 1)
    ensures Masked(b, 32) == Bit(b, 2) && Masked(b, 16) == Bit(b, 3)
    ensures Masked(b, 8) == Bit(b, 4) && Masked(b, 4) == Bit(b, 5)
    ensures Masked(b, 2) == Bit(b, 6) && Masked(b, 1) == Bit(b, 7)
  {
    assert Pow2(0) == 1;
    assert Pow2(1) == 2;
    assert Pow2(2) == 4;
    assert Pow2(3) == 8;
    assert Pow2(4) == 16;
    assert Pow2(5) == 32;
    assert Pow2(6) == 64;
    assert Pow2(7) == 128;
    MaskSelectsBit(b, 0);
    MaskSelectsBit(b, 1);
    MaskSelectsBit(b, 2);
    MaskSelectsBit(b, 3);
    MaskSelectsBit(b, 4);
    MaskSelectsBit(b, 5);
    MaskSelectsBit(b, 6);
    MaskSelectsBit(b, 7);
  }
}

=== FILE: rgb.dfy ===
/**
  The RGB_24BPP path of `putBinaryImageData`: three source bytes per pixel,
  expanded into RGBA with an opaque alpha, one 16-row chunk at a time.
*/
module Rgb {
  import opened Basics
  import opened Pixels
  import opened Chunking
  import opened Canvas

  /**
    Source byte `i` as the decoder reads it. A read past the end of the typed
    array yields `undefined`, which the clamped canvas array stores as 0.
  */
  function At(src: seq<byte>, i: nat): (b: byte)
    ensures i < |src| ==> b == src[i]
    ensures i >= |src| ==> b == 0
  {
    if i < |src| then src[i] else 0
  }

  /** Pixel `p` of the image, counted in row-major order: bytes 3p, 3p+1, 3p+2 and alpha 255. */
  function RgbPixel(src: seq<byte>, p: nat): Pixel
  {
    Pixel(At(src, 3 * p), At(src, 3 * p + 1), At(src, 3 * p + 2), 255)
  }

  /** The `count` pixels of the image that start at pixel `start`. */
  function RunPixels(src: seq<byte>, start: nat, count: nat): (ps: seq<Pixel>)
    ensures |ps| == count
    ensures forall k :: 0 <= k < count ==> ps[k] == RgbPixel(src, start + k)
  {
    seq(count, k requires 0 <= k < count => RgbPixel(src, start + k))
  }

  /** The first `count` pixels of the image. */
  function RgbImage(src: seq<byte>, count: nat): (ps: seq<Pixel>)
    ensures |ps| == count
  {
    RunPixels(src, 0, count)
  }

  /** The RGBA bytes of the `count` pixels that start at pixel `start`. */
  function RgbRun(src: seq<byte>, start: nat, count: nat): seq<byte>
  {
    Flatten(RunPixels(src, start, count))
  }

  /** The visible rows of chunk `i`: the pixels of its rows, which begin at its first row. */
  function RgbChunk(src: seq<byte>, width: nat, height: nat, i: nat): (data: seq<byte>)
    requires i < TotalChunks(height)
    ensures |data| == 4 * (width * ChunkHeight(height, i))
  {
    RgbRun(src, width * ChunkRow(i), width * ChunkHeight(height, i))
  }

  /** Every call the RGB path makes: one per chunk, at the chunk's first row. */
  function RgbPuts(src: seq<byte>, width: nat, height: nat): (puts: seq<Put>)
    ensures |puts| == TotalChunks(height)
    ensures forall i :: 0 <= i < |puts| ==>
              puts[i].dy == ChunkRow(i) && puts[i].image.width == width
  {
    seq(TotalChunks(height), i requires 0 <= i < TotalChunks(height) =>
      Put(ChunkRow(i), ImageData(width, ChunkHeight(height, i), RgbChunk(src, width, height, i))))
  }

  /**
    The inner loop of one chunk, `for (j = elemsInThisChunk; j--;)`: each
    pass copies three source bytes from `srcPos` and writes alpha 255.
  */
  method ExpandRun(src: seq<byte>, start: nat, count: nat, srcPos: nat)
    returns (dest: seq<byte>, next: nat)
    requires srcPos == 3 * start
    ensures dest == RgbRun(src, start, count)
    ensures next == srcPos + 3 * count
  {
    dest := [];
    next := srcPos;
    var j := count;
    while j != 0
      invariant 0 <= j <= count
      invariant next == 3 * (start + (count - j))
      invariant dest == RgbRun(src, start, count - j)
    {
      j := j - 1;
      var done := count - j - 1;
      ghost var ps := RunPixels(src, start, done);
      assert RunPixels(src, start, done + 1) == ps + [RgbPixel(src, start + done)];
      FlattenSnoc(ps, RgbPixel(src, start + done));
      dest := dest + [At(src, next), At(src, next + 1), At(src, next + 2), 255];
      next := next + 3;
    }
  }

  /**
    The decoder's outer loop: chunk after chunk, `elemsInThisChunk` pixels
    are expanded into the buffer, with `srcPos` carried from chunk to chunk.
    Returns the calls made and the final `srcPos`.
  */
  method PutRgb(src: seq<byte>, width: nat, height: nat) returns (log: seq<Put>, srcPos: nat)
    ensures log == RgbPuts(src, width, height)
    ensures srcPos == 3 * (width * height)
  {
    var partialChunkHeight := height % FullChunkHeight;
    var fullChunks := (height - partialChunkHeight) / FullChunkHeight;
    var totalChunks := if partialChunkHeight == 0 then fullChunks else fullChunks + 1;
    var thisChunkHeight := FullChunkHeight;
    var elemsInThisChunk := width * thisChunkHeight;
    ghost var puts := RgbPuts(src, width, height);
    srcPos := 0;
    log := [];
    var i := 0;
    while i < totalChunks
      invariant totalChunks == TotalChunks(height) == |puts| && fullChunks == FullChunks(height)
      invariant i <= totalChunks
      invariant i <= fullChunks ==> thisChunkHeight == FullChunkHeight
      invariant i > fullChunks ==> thisChunkHeight == partialChunkHeight
      invariant elemsInThisChunk == width * thisChunkHeight
      invariant srcPos == 3 * (width * RowsBefore(height, i))
      invariant log == puts[..i]
    {
      if i >= fullChunks {
        thisChunkHeight := partialChunkHeight;
        elemsInThisChunk := width * thisChunkHeight;
      }
      assert thisChunkHeight == ChunkHeight(height, i);
      RowsBeforeChunk(height, i);
      var dest;
      dest, srcPos := ExpandRun(src, width * ChunkRow(i), elemsInThisChunk, srcPos);
      var put := Put(i * FullChunkHeight, ImageData(width, thisChunkHeight, dest));
      assert put == puts[i];
      PrefixSnoc(puts, i);
      log := log + [put];
      assert RowsBefore(height, i + 1) == RowsBefore(height, i) + thisChunkHeight;
      MulDist(width, RowsBefore(height, i), thisChunkHeight);
      i := i + 1;
    }
    RowsBeforeChunk(height, i);
    assert puts[..i] == puts;
  }

  /** Every pixel of every chunk is opaque. */
  lemma RgbOpaque(src: seq<byte>, width: nat, height: nat, i: nat, p: nat)
    requires i < TotalChunks(height) && p < width * ChunkHeight(height, i)
    ensures PixelAt(RgbPuts(src, width, height)[i].image.data, p).a == 255
  {
    PixelAtFlatten(RunPixels(src, width * ChunkRow(i), width * ChunkHeight(height, i)), p);
  }

  /**
    With a source that holds the whole image, pixel `c` of row `r` is drawn
    from source bytes 3(r*width+c) .. 3(r*width+c)+2, in chunk r/16 at slot
    (r%16)*width + c.
  */
  lemma RgbPixelIsSource(src: seq<byte>, width: nat, height: nat, r: nat, c: nat)
    requires |src| >= 3 * (width * height)
    requires r < height && c < width
    ensures r / FullChunkHeight < TotalChunks(height)
    ensures Slot(width, r % FullChunkHeight, c) < width * ChunkHeight(height, r / FullChunkHeight)
    ensures 3 * Slot(width, r, c) + 2 < |src|
    ensures PixelAt(RgbPuts(src, width, height)[r / FullChunkHeight].image.data,
            Slot(width, r % FullChunkHeight, c))
         == Pixel(src[3 * Slot(width, r, c)], src[3 * Slot(width, r, c) + 1],
             src[3 * Slot(width, r, c) + 2], 255)
  {
    PixelInChunk(width, height, r, c);
    var i, slot := r / FullChunkHeight, Slot(width, r % FullChunkHeight, c);
    var run := RunPixels(src, width * ChunkRow(i), width * ChunkHeight(height, i));
    PixelAtFlatten(run, slot);
    assert run[slot] == RgbPixel(src, Slot(width, r, c));
  }

  /**
    Pixel `c` of row `r` as drawn, on any source: each colour byte is the
    source byte when the source reaches it and 0 past the end, and alpha is 255.
  */
  lemma RgbPixelDrawn(src: seq<byte>, width: nat, height: nat, r: nat, c: nat)
    requires r < height && c < width
    ensures r / FullChunkHeight < TotalChunks(height)
    ensures 4 * Slot(width, r % FullChunkHeight, c) + 4
            <= |RgbPuts(src, width, height)[r / FullChunkHeight].image.data|
    ensures var px := PixelAt(RgbPuts(src, width, height)[r / FullChunkHeight].image.data,
                              Slot(width, r % FullChunkHeight, c));
            var p := 3 * Slot(width, r, c);
            && px.r == (if p < |src| then src[p] else 0)
            && px.g == (if p + 1 < |src| then src[p + 1] else 0)
            && px.b == (if p + 2 < |src| then src[p + 2] else 0)
            && px.a == 255
  {
    PixelInChunk(width, height, r, c);
    var i, slot := r / FullChunkHeight, Slot(width, r % FullChunkHeight, c);
    var run := RunPixels(src, width * ChunkRow(i), width * ChunkHeight(height, i));
    PixelAtFlatten(run, slot);
    assert run[slot] == RgbPixel(src, Slot(width, r, c));
  }

  /** A pixel whose three source bytes lie past the end of a short source is drawn opaque black. */
  lemma RgbPixelPastSource(src: seq<byte>, width: nat, height: nat, r: nat, c: nat)
    requires r < height && c < width && 3 * Slot(width, r, c) >= |src|
    ensures r / FullChunkHeight < TotalChunks(height)
    ensures 4 * Slot(width, r % FullChunkHeight, c) + 4
            <= |RgbPuts(src, width, height)[r / FullChunkHeight].image.data|
    ensures PixelAt(RgbPuts(src, width, height)[r / FullChunkHeight].image.data,
            Slot(width, r % FullChunkHeight, c)) == Pixel(0, 0, 0, 255)
  {
    RgbPixelDrawn(src, width, height, r, c);
  }

  /**
    Read back in order, the chunks are the RGBA expansion of the first
    width*height source pixels: nothing is skipped, repeated or reordered.
  */
  lemma RgbConcatenation(src: seq<byte>, width: nat, height: nat)
    ensures Concatenated(RgbPuts(src, width, height)) == Flatten(RgbImage(src, width * height))
  {
    var puts := RgbPuts(src, width, height);
    var whole := Flatten(RgbImage(src, width * height));
    forall i | 0 <= i < |puts|
      ensures ChunkHoldsRows(puts, whole, 4 * width, height, i)
    {
      RgbChunkIsSlice(src, width, height, i);
    }
    ConcatenatedRows(puts, whole, 4 * width, height, |puts|);
    RowsBeforeChunk(height, |puts|);
    assert puts[..|puts|] == puts;
    assert |whole| == 4 * (width * height);
    MulAssoc(4, width, height);
  }

  /** The bytes of a run of pixels are the matching slice of the expanded image. */
  lemma RunIsSlice(src: seq<byte>, lo: nat, n: nat, total: nat)
    requires lo + n <= total
    ensures 4 * (lo + n) <= |Flatten(RgbImage(src, total))|
    ensures RgbRun(src, lo, n) == Flatten(RgbImage(src, total))[4 * lo .. 4 * (lo + n)]
  {
    var image := RgbImage(src, total);
    forall k | 0 <= k < n
      ensures RunPixels(src, lo, n)[k] == image[lo..lo + n][k]
    {
      assert image[lo + k] == RgbPixel(src, 0 + (lo + k));
    }
    assert RunPixels(src, lo, n) == image[lo..lo + n];
    FlattenSlice(image, lo, lo + n);
  }

  /** Chunk `i` is the slice of the expanded image covering its rows. */
  lemma RgbChunkIsSlice(src: seq<byte>, width: nat, height: nat, i: nat)
    requires i < TotalChunks(height)
    ensures ChunkHoldsRows(RgbPuts(src, width, height), Flatten(RgbImage(src, width * height)),
            4 * width, height, i)
  {
    ChunkSpan(width, height, i);
    var lo, n := width * ChunkRow(i), width * ChunkHeight(height, i);
    RunIsSlice(src, lo, n, width * height);
    assert RgbPuts(src, width, height)[i].image.data == RgbRun(src, lo, n);
  }
}

=== FILE: rgba.dfy ===
/**
  The RGBA_32BPP path of `putBinaryImageData`: source bytes are copied
  unchanged into the reused 16-row buffer, one chunk at a time.
*/
module Rgba {
  import opened Basics
  import opened Pixels
  import opened Chunking
  import opened Canvas

  /**
    `src.subarray(begin, end)`: both ends are clamped to the array, so a
    short source yields a shorter (possibly empty) view.
  */
  function Subarray(src: seq<byte>, begin: nat, end: nat): (view: seq<byte>)
    requires begin <= end
    ensures end <= |src| ==> view == src[begin..end]
    ensures |view| <= end - begin
  {
    var b := if begin < |src| then begin else |src|;
    var e := if end < |src| then end else |src|;
    src[b..e]
  }

  /** `dest.set(view)`: the view overwrites the front of the buffer; the rest keeps what it held. */
  function SetFront(dest: seq<byte>, view: seq<byte>): (r: seq<byte>)
    requires |view| <= |dest|
    ensures |r| == |dest|
    ensures r[..|view|] == view && r[|view|..] == dest[|view|..]
  {
    view + dest[|view|..]
  }

  /** Bytes per chunk buffer: 16 rows of `width` four-byte pixels. */
  function BufferLength(width: nat): nat
  {
    4 * width * FullChunkHeight
  }

  /** Where chunk `i`'s bytes begin in the source: `srcPos` when the chunk is copied. */
  function ChunkStart(width: nat, i: nat): nat
  {
    4 * width * ChunkRow(i)
  }

  /** Consecutive chunks start one full buffer apart. */
  lemma ChunkStartStep(width: nat, i: nat)
    ensures ChunkStart(width, i + 1) == ChunkStart(width, i) + BufferLength(width)
  {
    assert ChunkRow(i + 1) == ChunkRow(i) + FullChunkHeight;
  }

  /** `elemsInThisChunk` for chunk `i`: the bytes of its rows. */
  function ChunkBytes(width: nat, height: nat, i: nat): (n: nat)
    requires i < TotalChunks(height)
    ensures n <= BufferLength(width)
  {
    ChunkBounds(height, i);
    MulLe(ChunkHeight(height, i), FullChunkHeight, 4 * width);
    4 * width * ChunkHeight(height, i)
  }

  /**
    The buffer once the first `n` chunks have been copied in. A fresh
    `createImageData` buffer is transparent black; each chunk overwrites its
    front, so when the source runs short the tail keeps the previous chunk's
    bytes.
  */
  function RgbaBuffer(src: seq<byte>, width: nat, height: nat, n: nat): (buf: seq<byte>)
    requires n <= TotalChunks(height)
    ensures |buf| == BufferLength(width)
  {
    if n == 0 then Blank(width)
    else
      var begin := ChunkStart(width, n - 1);
      SetFront(RgbaBuffer(src, width, height, n - 1),
          Subarray(src, begin, begin + ChunkBytes(width, height, n - 1)))
  }

  /** A fresh `createImageData` buffer: transparent black. */
  function Blank(width: nat): (buf: seq<byte>)
    ensures |buf| == BufferLength(width)
    ensures forall k :: 0 <= k < |buf| ==> buf[k] == 0
  {
    seq(BufferLength(width), _ => 0)
  }

  /** Every call the RGBA path makes: chunk `i`'s visible rows of the buffer, at its first row. */
  function RgbaPuts(src: seq<byte>, width: nat, height: nat): (puts: seq<Put>)
    ensures |puts| == TotalChunks(height)
    ensures forall i :: 0 <= i < |puts| ==>
              puts[i].dy == ChunkRow(i) && puts[i].image.width == width
  {
    seq(TotalChunks(height), i requires 0 <= i < TotalChunks(height) =>
      Put(ChunkRow(i), ImageData(width, ChunkHeight(height, i),
          RgbaBuffer(src, width, height, i + 1)[..ChunkBytes(width, height, i)])))
  }

  /** `dest.set(src.subarray(srcPos, srcPos + elemsInThisChunk))` for chunk `i`. */
  method CopyChunk(src: seq<byte>, width: nat, height: nat, i: nat, dest: seq<byte>, srcPos: nat,
      elemsInThisChunk: nat)
    returns (filled: seq<byte>)
    requires i < TotalChunks(height)
    requires dest == RgbaBuffer(src, width, height, i)
    requires srcPos == ChunkStart(width, i) && elemsInThisChunk == ChunkBytes(width, height, i)
    ensures filled == RgbaBuffer(src, width, height, i + 1)
  {
    filled := SetFront(dest, Subarray(src, srcPos, srcPos + elemsInThisChunk));
  }

  /** Chunk `i`'s call extends the calls of the chunks before it. */
  lemma NextPut(src: seq<byte>, width: nat, height: nat, i: nat)
    requires i < TotalChunks(height)
    ensures RgbaPuts(src, width, height)[..i + 1] == RgbaPuts(src, width, height)[..i]
      + [Put(ChunkRow(i), ImageData(width, ChunkHeight(height, i),
          RgbaBuffer(src, width, height, i + 1)[..ChunkBytes(width, height, i)]))]
  {
    var puts := RgbaPuts(src, width, height);
    assert puts[..i + 1] == puts[..i] + [puts[i]];
  }

  /**
    The decoder's RGBA branch: a loop over the full chunks, then one more
    copy when a partial chunk remains. Returns the calls made.
  */
  method PutRgba(src: seq<byte>, width: nat, height: nat) returns (log: seq<Put>)
    ensures log == RgbaPuts(src, width, height)
  {
    var partialChunkHeight := height % FullChunkHeight;
    var fullChunks := (height - partialChunkHeight) / FullChunkHeight;
    var totalChunks := if partialChunkHeight == 0 then fullChunks else fullChunks + 1;
    var dest: seq<byte> := Blank(width);
    var srcPos := 0;
    var j := 0;
    var elemsInThisChunk := width * FullChunkHeight * 4;
    assert elemsInThisChunk == BufferLength(width);
    log := [];
    var i := 0;
    while i < fullChunks
      invariant totalChunks == TotalChunks(height) && fullChunks == FullChunks(height)
              && fullChunks <= totalChunks
      invariant i <= fullChunks
      invariant elemsInThisChunk == BufferLength(width)
      invariant srcPos == ChunkStart(width, i) && j == ChunkRow(i)
      invariant dest == RgbaBuffer(src, width, height, i)
      invariant log == RgbaPuts(src, width, height)[..i]
    {
      dest, srcPos, log := PutFullChunk(src, width, height, i, dest, srcPos,
                                           elemsInThisChunk, j, log);
      j := j + FullChunkHeight;
      i := i + 1;
    }
    log := PutPartialChunk(src, width, height, i, dest, srcPos, j, log);
  }

  /**
    One pass of the full-chunk loop: copy chunk `i` in, advance `srcPos`, put the whole
    buffer at row `j`.
  */
  method PutFullChunk(src: seq<byte>, width: nat, height: nat, i: nat, dest: seq<byte>, srcPos: nat,
      elemsInThisChunk: nat, j: nat, log: seq<Put>)
    returns (dest': seq<byte>, srcPos': nat, log': seq<Put>)
    requires i < FullChunks(height) && elemsInThisChunk == BufferLength(width)
    requires srcPos == ChunkStart(width, i) && j == ChunkRow(i)
    requires dest == RgbaBuffer(src, width, height, i)
    requires log == RgbaPuts(src, width, height)[..i]
    ensures srcPos' == ChunkStart(width, i + 1)
    ensures dest' == RgbaBuffer(src, width, height, i + 1)
    ensures log' == RgbaPuts(src, width, height)[..i + 1]
  {
    FullChunkBytes(width, height, i);
    dest' := CopyChunk(src, width, height, i, dest, srcPos, elemsInThisChunk);
    ChunkStartStep(width, i);
    srcPos' := srcPos + elemsInThisChunk;
    NextPut(src, width, height, i);
    assert dest'[..ChunkBytes(width, height, i)] == dest';
    log' := log + [Put(j, ImageData(width, FullChunkHeight, dest'))];
  }

  /** The tail of the RGBA branch: `if (i < totalChunks)`, copy and put the partial chunk. */
  method PutPartialChunk(src: seq<byte>, width: nat, height: nat, i: nat, dest: seq<byte>,
      srcPos: nat, j: nat, log: seq<Put>)
    returns (all: seq<Put>)
    requires i == FullChunks(height) && srcPos == ChunkStart(width, i) && j == ChunkRow(i)
    requires dest == RgbaBuffer(src, width, height, i)
    requires log == RgbaPuts(src, width, height)[..i]
    ensures all == RgbaPuts(src, width, height)
  {
    var partialChunkHeight := height % FullChunkHeight;
    var totalChunks := if partialChunkHeight == 0 then i else i + 1;
    all := log;
    if i < totalChunks {
      var elemsInThisChunk := width * partialChunkHeight * 4;
      PartialChunkBytes(width, height, i);
      var filled := CopyChunk(src, width, height, i, dest, srcPos, elemsInThisChunk);
      NextPut(src, width, height, i);
      all := all + [Put(j, ImageData(width, partialChunkHeight, filled[..elemsInThisChunk]))];
      assert RgbaPuts(src, width, height)[..i + 1] == RgbaPuts(src, width, height);
    } else {
      assert RgbaPuts(src, width, height)[..i] == RgbaPuts(src, width, height);
    }
  }

  /** The partial chunk, when there is one, is the last and covers the remaining rows. */
  lemma PartialChunkBytes(width: nat, height: nat, i: nat)
    requires i == FullChunks(height) && i < TotalChunks(height)
    ensures i + 1 == TotalChunks(height)
    ensures ChunkHeight(height, i) == height % FullChunkHeight
    ensures ChunkBytes(width, height, i) == width * (height % FullChunkHeight) * 4
  {
  }

  /** A full chunk's rows fill the whole buffer. */
  lemma FullChunkBytes(width: nat, height: nat, i: nat)
    requires i < FullChunks(height)
    ensures i < TotalChunks(height)
    ensures ChunkBytes(width, height, i) == BufferLength(width)
  {
    assert ChunkHeight(height, i) == FullChunkHeight;
  }

  /** Chunk `i`'s bytes end where its last row ends, inside the image. */
  lemma ChunkEnd(width: nat, height: nat, i: nat)
    requires i < TotalChunks(height)
    ensures ChunkStart(width, i) + ChunkBytes(width, height, i)
            == 4 * width * (ChunkRow(i) + ChunkHeight(height, i))
    ensures ChunkStart(width, i) + ChunkBytes(width, height, i) <= 4 * width * height
  {
    ChunkBounds(height, i);
    MulLe(ChunkRow(i) + ChunkHeight(height, i), height, 4 * width);
  }

  /**
    Byte `k` of chunk `i`'s call: the source byte at `srcPos + k` when the
    source reaches it; otherwise the byte the buffer already held, which is
    0 for the first chunk and the previous chunk's byte `k` after that.
  */
  lemma RgbaChunkByte(src: seq<byte>, width: nat, height: nat, i: nat, k: nat)
    requires i < TotalChunks(height) && k < ChunkBytes(width, height, i)
    ensures k < |RgbaPuts(src, width, height)[i].image.data|
    ensures ChunkStart(width, i) + k < |src| ==>
              RgbaPuts(src, width, height)[i].image.data[k] == src[ChunkStart(width, i) + k]
    ensures ChunkStart(width, i) + k >= |src| && i == 0 ==>
              RgbaPuts(src, width, height)[i].image.data[k] == 0
    ensures ChunkStart(width, i) + k >= |src| && i > 0 ==>
              && k < |RgbaPuts(src, width, height)[i - 1].image.data|
              && RgbaPuts(src, width, height)[i].image.data[k]
                 == RgbaPuts(src, width, height)[i - 1].image.data[k]
  {
    var begin := ChunkStart(width, i);
    var prev := RgbaBuffer(src, width, height, i);
    var view := Subarray(src, begin, begin + ChunkBytes(width, height, i));
    assert RgbaBuffer(src, width, height, i + 1) == SetFront(prev, view);
    if begin + k < |src| {
      assert view[k] == src[begin + k];
    } else {
      assert |view| <= k;
      if i > 0 {
        ChunkBounds(height, i - 1);
        assert ChunkBytes(width, height, i - 1) == BufferLength(width);
      }
    }
  }

  /**
    A short source: a byte of chunk `i` that lies past the end of the source
    is not read from it but left over, 0 in the first chunk and the previous
    chunk's byte after that.
  */
  lemma RgbaByteAfterSource(src: seq<byte>, width: nat, height: nat, i: nat, k: nat)
    requires i < TotalChunks(height) && k < ChunkBytes(width, height, i)
    requires ChunkStart(width, i) + k >= |src|
    ensures k < |RgbaPuts(src, width, height)[i].image.data|
    ensures i > 0 ==> k < |RgbaPuts(src, width, height)[i - 1].image.data|
    ensures RgbaPuts(src, width, height)[i].image.data[k]
            == (if i == 0 then 0 else RgbaPuts(src, width, height)[i - 1].image.data[k])
  {
    RgbaChunkByte(src, width, height, i, k);
  }

  /** When the source reaches past chunk `i`, the chunk shows exactly the source bytes it copied. */
  lemma RgbaChunkData(src: seq<byte>, width: nat, height: nat, i: nat)
    requires i < TotalChunks(height)
    requires ChunkStart(width, i) + ChunkBytes(width, height, i) <= |src|
    ensures RgbaPuts(src, width, height)[i].image.data
            == src[ChunkStart(width, i) .. ChunkStart(width, i) + ChunkBytes(width, height, i)]
  {
    var buf := RgbaBuffer(src, width, height, i + 1);
    assert buf[..ChunkBytes(width, height, i)]
        == src[ChunkStart(width, i) .. ChunkStart(width, i) + ChunkBytes(width, height, i)];
  }

  /** With a source that holds the whole image, each chunk shows exactly its rows' source bytes. */
  lemma RgbaChunkIsSource(src: seq<byte>, width: nat, height: nat, i: nat)
    requires |src| >= 4 * width * height
    requires i < TotalChunks(height)
    ensures ChunkHoldsRows(RgbaPuts(src, width, height), src, 4 * width, height, i)
  {
    ChunkEnd(width, height, i);
    RgbaChunkData(src, width, height, i);
  }

  /**
    With a source that holds the whole image, the chunks read back in order
    are exactly its first 4*width*height bytes: the RGBA path is a plain copy.
  */
  lemma RgbaCopiesSource(src: seq<byte>, width: nat, height: nat)
    requires |src| >= 4 * width * height
    ensures Concatenated(RgbaPuts(src, width, height)) == src[..4 * width * height]
  {
    var puts := RgbaPuts(src, width, height);
    forall i | 0 <= i < |puts|
      ensures ChunkHoldsRows(puts, src, 4 * width, height, i)
    {
      RgbaChunkIsSource(src, width, height, i);
    }
    ConcatenatedRows(puts, src, 4 * width, height, |puts|);
    RowsBeforeChunk(height, |puts|);
    assert puts[..|puts|] == puts;
  }

  /**
    In pixels, chunk `i` starts at pixel width*ChunkRow(i) and holds
    width*ChunkHeight(height, i) of them.
  */
  lemma ChunkInPixels(width: nat, height: nat, i: nat)
    requires i < TotalChunks(height)
    ensures ChunkStart(width, i) == 4 * (width * ChunkRow(i))
    ensures ChunkBytes(width, height, i) == 4 * (width * ChunkHeight(height, i))
  {
  }

  /** Pixel `slot` of chunk `i` is the source pixel at the chunk's start plus `slot`. */
  lemma ChunkPixelIsSource(src: seq<byte>, width: nat, height: nat, i: nat, slot: nat)
    requires i < TotalChunks(height)
    requires ChunkStart(width, i) + ChunkBytes(width, height, i) <= |src|
    requires slot < width * ChunkHeight(height, i)
    ensures 4 * slot + 4 <= |RgbaPuts(src, width, height)[i].image.data|
    ensures 4 * (width * ChunkRow(i) + slot) + 4 <= |src|
    ensures PixelAt(RgbaPuts(src, width, height)[i].image.data, slot)
            == PixelAt(src, width * ChunkRow(i) + slot)
  {
    var q, n := width * ChunkRow(i), width * ChunkHeight(height, i);
    ChunkInPixels(width, height, i);
    RgbaChunkData(src, width, height, i);
    assert 4 * q + 4 * n == 4 * (q + n);
    PixelAtSlice(src, q, n, slot);
  }

  /** Pixel `c` of row `r` is the four source bytes at 4(r*width+c), unchanged. */
  lemma RgbaPixelIsSource(src: seq<byte>, width: nat, height: nat, r: nat, c: nat)
    requires |src| >= 4 * width * height
    requires r < height && c < width
    ensures r / FullChunkHeight < TotalChunks(height)
    ensures 4 * Slot(width, r % FullChunkHeight, c) + 4
            <= |RgbaPuts(src, width, height)[r / FullChunkHeight].image.data|
    ensures 4 * Slot(width, r, c) + 4 <= |src|
    ensures PixelAt(RgbaPuts(src, width, height)[r / FullChunkHeight].image.data,
            Slot(width, r % FullChunkHeight, c))
         == PixelAt(src, Slot(width, r, c))
  {
    PixelInChunk(width, height, r, c);
    var i, slot := r / FullChunkHeight, Slot(width, r % FullChunkHeight, c);
    var p := Slot(width, r, c);
    assert width * ChunkRow(i) + slot == p;
    ChunkEnd(width, height, i);
    ChunkPixelIsSource(src, width, height, i, slot);
    assert PixelAt(RgbaPuts(src, width, height)[i].image.data, slot) == PixelAt(src, p);
  }
}

=== FILE: wrappers.dfy ===
/** The failure-carrying result used for operations of the model that can throw. */
module Wrappers {

  /** Either the value an operation returns or the error it throws. */
  datatype Result<+T, +E> = Success(value: T) | Failure(error: E)
}
